=== FILE: README.md ===
# Streaming-provider pipeline of the movie service, in Dafny

The movie service answers the question "where can I watch this title in
Korea?". It looks a title up on TMDB (The Movie Database) and turns the raw
per-region watch-provider lists into a small, fixed catalog of Korean
streaming services. Along the way it:

- matches provider names against aliases;
- de-duplicates the lists and sorts them into catalog order;
- merges the flatrate and free tiers into a "primary" tier;
- decides whether the rent/buy tier should be shown;
- falls back to the US record when Korea has none.

Every API route keeps its own TTL response cache and its own fixed-window
rate limiter, keyed by client IP. The home feed splits trending titles into
several lists. The detail page filters provider lists for display.

This project models that core as immutable datatypes and pure functions,
and proves what the code promises about them:

| file | module | what it models |
|---|---|---|
| `provider_config.dfy` | `ProviderConfig` | the seven-entry catalog, `normalizeName`, `matchProvider` (ids first, then names, first hit wins), and `sortProviders` |
| `stable_sort.dfy` | `StableSort` | the stable sort by rank behind `sortProviders` |
| `catalog_aliases.dfy` | `CatalogAliases` | what every catalog alias normalises to, and so which names select which entry |
| `provider_transform.dfy` | `ProviderTransform` | `dedupByKey`, `toViews`, `buildRegionProviders` |
| `providers.dfy` | `Providers` | the Korea/US region-selection rule of `getProvidersForKorea` |
| `provider_cases.dfy` | `ProviderCases` | the three worked scenarios of `scripts/provider-cases.ts` |
| `ttl_cache.dfy` | `TtlCache` | `TtlCache.get` / `set` with the clock as a parameter |
| `rate_limiter.dfy` | `RateLimiter` | `FixedWindowRateLimiter.check` with the clock as a parameter |
| `client_ip.dfy` | `ClientIp` | `getClientIp` header precedence |
| `tmdb.dfy` | `Tmdb` | image URLs and `releaseYear` |
| `image_helpers.dfy` | `ImageHelpers` | `posterUrlFromPath` and `yearFromDate` |
| `api_client.dfy` | `ApiClient` | `tmdbUrl` |
| `search.dfy` | `Search` | `toContent`, the `searchMulti` map/filter, and the `getTrending` row map and limit |
| `home.dfy` | `Home` | the home route: limit parsing, cache key, `hasAnyProvidersKr`, the TV and movie partitions, and the payload prefixes |
| `content_detail.dfy` | `ContentDetail` | `ottLabel`, `pickProvidersForUi`, `applyOttFilter` |
| `text.dfy`, `seqs.dfy`, `types.dfy`, `options.dfy` | `Text`, `Seqs`, `Types`, `Options` | shared building blocks: JavaScript `trim` and lower-casing, filter/subsequence/prefix, the records of `types.ts`, `Option` |

Modelling choices:

- **Missing values.** `null` and `undefined` are one `None`: the code treats
  them alike through `??` and truthiness.
- **Clock.** `Date.now()` becomes an explicit integer `now`.
- **Fetched data.** It arrives as already-validated datatypes.

## Model

| member | source | states |
|---|---|---|
| ProviderConfig.WhitelistWellFormed | src/lib/provider-config.ts:10-23 | the catalog has seven entries; keys are pairwise distinct; entry i has order i and declares no match ids; every order is below the unknown-key order 999 |
| ProviderConfig.NormalizeName | src/lib/provider-config.ts:27-33 | a normalised name contains only the characters a-z and 0-9 |
| ProviderConfig.ReplacePlusSound | src/lib/provider-config.ts:31 | after the plus rewrite no `+` is left, and a name without `+` is unchanged |
| ProviderConfig.NormalizeIsSquash | src/lib/provider-config.ts:27-33 | the trim step never changes the result: normalising equals lower-casing, rewriting `+` and stripping, without trimming |
| ProviderConfig.NormalizeAppend | src/lib/provider-config.ts:27-33 | normalisation distributes over concatenation |
| ProviderConfig.NormalizeIdempotent | src/lib/provider-config.ts:27-33 | normalising an already normalised name changes nothing |
| ProviderConfig.AnyAliasMatches | src/lib/provider-config.ts:45-47 | the alias loop answers true exactly when some alias normalises to the given name |
| ProviderConfig.FirstById | src/lib/provider-config.ts:38-40 | the id loop finds the first entry declaring the id, and finds none exactly when no entry declares it |
| ProviderConfig.FirstByName | src/lib/provider-config.ts:44-48 | the name loop finds the first entry with a matching alias, and finds none exactly when no entry has one |
| ProviderConfig.MatchIn | src/lib/provider-config.ts:35-50 | an id hit wins; otherwise the result is null exactly when no entry's alias matches, else it is the first entry in declared order whose alias matches |
| ProviderConfig.MatchProvider | src/lib/provider-config.ts:35-50 | on the catalog: null exactly when no alias matches the normalised name, otherwise the first matching entry in declared order |
| ProviderConfig.IdNeverMatches | src/lib/provider-config.ts:36-41 | the provider id never changes the match, since no entry declares match ids |
| ProviderConfig.ByKey | src/lib/provider-config.ts:25 | key lookup finds an entry with that key, and finds none exactly when no entry has it |
| ProviderConfig.ByKeyWhitelist | src/lib/provider-config.ts:25 | looking up a catalog key gives back that entry |
| ProviderConfig.OrderOf | src/lib/provider-config.ts:54-55 | a catalog key ranks in 0..6; any other key ranks 999 |
| ProviderConfig.OrderOfEntry | src/lib/provider-config.ts:54-55 | the rank of catalog entry i's key is exactly i, its position in the catalog |
| ProviderConfig.SortProviders | src/lib/provider-config.ts:52-58 | the result is a permutation of the input with the same length and keys; it is non-decreasing by catalog order, is stable for every order value, and keeps keys distinct |
| ProviderConfig.SortProvidersIdempotent | src/lib/provider-config.ts:52-58 | sorting a sorted list changes nothing |
| ProviderConfig.CatalogKeysFirst | src/lib/provider-config.ts:54-56 | in a sorted list, keys outside the catalog come after every catalog key |
| StableSort.SortBy | src/lib/provider-config.ts:53-57 | a stable sort by any rank: a permutation, non-decreasing, and every rank's views keep their relative order |
| StableSort.SortBySorted | src/lib/provider-config.ts:53-57 | a list already in rank order is returned unchanged |
| CatalogAliases.NameMatchesForms | src/lib/provider-config.ts:11-22 | entry i matches a normalised name exactly when the name is one of the normal forms of entry i's aliases |
| CatalogAliases.FormsDisjoint | src/lib/provider-config.ts:11-22 | no normal form belongs to two entries, so the declared order never decides between entries |
| CatalogAliases.MatchProviderForms | src/lib/provider-config.ts:43-49 | `matchProvider` selects entry i exactly when the normalised name is one of entry i's alias forms |
| CatalogAliases.NoMatchForms | src/lib/provider-config.ts:43-49 | `matchProvider` returns null exactly when the normalised name is no entry's alias form |
| CatalogAliases.DisneySpellings | src/lib/provider-config.ts:27-49 | `Disney+`, `Disney Plus` and `disneyplus` all normalise to `disneyplus` and select the `disney` entry |
| CatalogAliases.MatchNetflix | src/lib/provider-config.ts:11 | `Netflix` selects the `netflix` entry |
| CatalogAliases.MatchAppleTvPlus | src/lib/provider-config.ts:17-22 | `Apple TV Plus` selects the `appletvplus` entry |
| ProviderTransform.DedupByKey | src/lib/provider-transform.ts:6-12 | the output has distinct keys, the same key set as the input, and is a subsequence of it; each kept view is the first one in the input with its key, and the kept views come in the order their keys first occur |
| ProviderTransform.DedupFromDistinct | src/lib/provider-transform.ts:6-12 | a list whose keys are already distinct passes through unchanged |
| ProviderTransform.DedupIdempotent | src/lib/provider-transform.ts:6-12 | de-duplicating twice equals de-duplicating once |
| ProviderTransform.MatchedViews | src/lib/provider-transform.ts:21-22 | records matching no catalog entry are dropped; every remaining view is a catalog view |
| ProviderTransform.EntryViewIsCatalogView | src/lib/provider-transform.ts:25-30 | a view built from a catalog entry has a catalog key, the catalog's display name, and the region's link |
| ProviderTransform.FirstMatchedView | src/lib/provider-transform.ts:20-30 | the first view with key k is built from the first raw record that matches k |
| ProviderTransform.CollectIsDedup | src/lib/provider-transform.ts:18-31 | the loop with its seen-keys map computes exactly the de-duplication of the matched views |
| ProviderTransform.ToViewsFacts | src/lib/provider-transform.ts:14-34 | for any matcher into the catalog, a key appears exactly when some raw record matches it, and its view is built from the first such record with the catalog name and the region link |
| ProviderTransform.ToViews | src/lib/provider-transform.ts:14-34 | keys are distinct, from the catalog, and sorted by catalog order; a key appears exactly when some raw record matches it; each view is built from the first record matching its key |
| ProviderTransform.MergePrimary | src/lib/provider-transform.ts:53 | the primary tier has distinct keys, is sorted, and has exactly the union of the flatrate and free keys; a key in flatrate keeps the first flatrate view with that key, any other key keeps the first free view with it |
| ProviderTransform.BuildRegionProviders | src/lib/provider-transform.ts:36-64 | an absent record gives not-found, empty tiers, paid hidden, and a message exactly for KR; a present record gives found, no message, the primary tier as the merge of the flatrate and free `toViews`, rent and buy from `toViews`, and paid shown exactly when the primary tier is empty |
| ProviderTransform.PrimaryKeys | src/lib/provider-transform.ts:48-53 | a key is in the primary tier exactly when some flatrate or free record matches it |
| ProviderTransform.NoRawMatch | src/lib/provider-transform.ts:20-22 | no key has a matching record exactly when no record matches any entry |
| ProviderTransform.ShowPaidIffNoPrimaryMatch | src/lib/provider-transform.ts:48-55 | paid is shown exactly when no flatrate or free record matches a catalog entry |
| Providers.ProvidersForKorea | src/lib/api/providers.ts:53-57 | KR is always built from the KR record; a fallback exists exactly when KR is absent and US is present, and it is built from the US record |
| Providers.FallbackShape | src/lib/api/providers.ts:56-57 | with a fallback, KR is not found, has its message and no providers, and the fallback is a found US region |
| Providers.KoreaPresentNoFallback | src/lib/api/providers.ts:57 | a KR record with no providers at all still rules out the fallback |
| Providers.OnlyKoreaAndUsMatter | src/lib/api/providers.ts:53-54 | results that agree on KR and US give the same answer |
| ProviderCases.Case1 | scripts/provider-cases.ts:12-30 | Netflix and Disney Plus on flatrate give a found region with primary keys netflix, disney; paid is hidden; one rent view |
| ProviderCases.Case2 | scripts/provider-cases.ts:32-48 | only rent and buy give an empty primary tier and paid shown, with rent keys netflix, appletvplus and buy key appletvplus |
| ProviderCases.Case3 | scripts/provider-cases.ts:50-65 | no KR record and a US record with Netflix give KR not found with a message, and a found US fallback with one primary view |
| TtlCache.Get | src/lib/cache.ts:8-16 | a hit exactly while now has not passed the expiry, and a hit leaves the store unchanged; a read past expiry removes that key alone |
| TtlCache.Set | src/lib/cache.ts:18-20 | the key is overwritten with the value and expiry now + ttl; every other key is untouched |
| TtlCache.SetThenGetHit | src/lib/cache.ts:8-20 | a value written at t is read back at any time up to and including t + ttl |
| TtlCache.SetThenGetExpired | src/lib/cache.ts:8-20 | after t + ttl the value is gone and the read evicts it |
| TtlCache.SetOtherKey | src/lib/cache.ts:18-20 | writing one key never changes what another key reads |
| TtlCache.ReplayAgrees | src/lib/cache.ts:8-20 | after any time-ordered history of calls, the store holds only last-written values with their expiry, and a written key is missing only if it expired before the latest call |
| TtlCache.ReadAfterHistory | src/lib/cache.ts:8-20 | a read after a time-ordered history answers the last value written to the key while it lives, and nothing otherwise |
| RateLimiter.CeilDiv1000 | src/lib/cache.ts:44 | the result is the ceiling of x / 1000 |
| RateLimiter.Check | src/lib/cache.ts:34-50 | a new or expired window admits with limit - 1 and restarts at (now, 1); a full window rejects with the ceiling of the remaining seconds and changes nothing; otherwise the count goes up by one and the rest is reported; other keys are untouched |
| RateLimiter.CheckKeepsSound | src/lib/cache.ts:38-49 | with limit at least 1 and a clock that does not run backwards, every window count stays in 1..limit and every admitted remaining is non-negative |
| RateLimiter.RetryAfterBounds | src/lib/cache.ts:43-45 | a rejection asks to wait between 1 and the window length in whole seconds |
| RateLimiter.AdmittedInsideWindow | src/lib/cache.ts:43-49 | inside an open window at most the rest of the limit is admitted |
| RateLimiter.AtMostLimitPerWindow | src/lib/cache.ts:34-50 | from the call that opens a window, at most limit calls are admitted before the window runs out |
| RateLimiter.OtherKeysIndependent | src/lib/cache.ts:35-49 | checking one key never changes the answer for another key |
| ClientIp.GetClientIp | src/app/api/_shared.ts:1-7 | a non-empty forwarded-for decides alone and gives its first hop; otherwise a non-empty real-ip gives that header trimmed; otherwise 127.0.0.1 |
| ClientIp.FirstHop | src/app/api/_shared.ts:3 | the first hop is the trimmed text before the first comma (the whole header when it has none); it is a comma-free slice of the header with no spaces at its ends |
| ClientIp.NoSurroundingSpace | src/app/api/_shared.ts:1-7 | whatever the headers, the address has no spaces at its ends |
| ClientIp.SingleHop | src/app/api/_shared.ts:3 | a forwarded-for naming one address, with no comma, gives that address trimmed |
| ClientIp.ForwardedForWins | src/app/api/_shared.ts:2-3 | a non-empty forwarded-for makes the real-ip header irrelevant |
| ClientIp.FirstHopOnly | src/app/api/_shared.ts:3 | only the first comma-separated hop counts, trimmed |
| ClientIp.EmptyFirstHop | src/app/api/_shared.ts:3 | a forwarded-for starting with a comma gives the empty address |
| Text.Lower | src/lib/provider-config.ts:29 | lower-casing keeps the length and maps each character on its own |
| Text.Trim | src/lib/provider-config.ts:30 | the result is the middle slice between two all-space ends; it has no space at either end, and it is empty exactly when the input is all spaces |
| Text.BeforeFirst | src/app/api/_shared.ts:3 | the first `split` segment is a prefix without the separator, followed by the separator or by the end of the text |
| Text.BeforeFirstAbsent | src/app/api/_shared.ts:3 | text without the separator is its own first `split` segment |
| Tmdb.ImageUrl | src/lib/tmdb.ts:71-79 | absent exactly when the path is absent or empty; otherwise the image prefix for the size followed by the untouched path |
| Tmdb.ImageUrlInjective | src/lib/tmdb.ts:71-79 | different paths give different URLs |
| Tmdb.PosterUrl | src/lib/tmdb.ts:71-74 | absent exactly when the path is absent or empty; otherwise the poster-size prefix followed by the path |
| Tmdb.LogoUrl | src/lib/tmdb.ts:76-79 | absent exactly when the path is absent or empty; otherwise the logo-size prefix followed by the path |
| Tmdb.BlankLogoPathKept | src/lib/tmdb.ts:76-78 | a whitespace-only logo path still gives a URL |
| Tmdb.ReleaseYear | src/lib/tmdb.ts:81-85 | absent for an absent or empty date; the value of a four-digit prefix |
| Tmdb.ReleaseYearOfRendered | src/lib/tmdb.ts:81-85 | a date that starts with a rendered four-digit year gives that year back |
| ImageHelpers.PosterUrlFromPath | src/lib/image-url.ts:3-6 | absent exactly when the path is absent or blank; otherwise the prefix followed by the untrimmed path |
| ImageHelpers.PosterHelpersDisagreeOnBlank | src/lib/image-url.ts:4 | the two poster helpers differ exactly on non-empty whitespace-only paths |
| ImageHelpers.YearFromDate | src/lib/image-url.ts:8-12 | absent for an absent or empty date; the value of a four-digit prefix |
| ImageHelpers.YearFromIsoDate | src/lib/image-url.ts:8-12 | a date that starts with a rendered four-digit year gives that year back |
| ApiClient.TmdbUrl | src/lib/api/_client.ts:49-51 | the URL starts with the API base and a slash, followed by the path; no slash is inserted when the path already starts with one |
| ApiClient.LeadingSlashOptional | src/lib/api/_client.ts:50 | a path with or without its leading slash gives the same URL |
| ApiClient.TmdbUrlInjective | src/lib/api/_client.ts:49-51 | equal URLs come from the same path, up to one leading slash |
| Search.ParseMediaType | src/lib/api/search.ts:31 | only `movie` and `tv` are media types |
| Search.MediaTypeRoundTrip | src/lib/api/search.ts:31 | a media type's name parses back to it |
| Search.ToContent | src/lib/api/search.ts:30-45 | a row is kept exactly when its type is movie or tv and its title is not blank; the kept title is untrimmed; poster and overview default to the empty string; dates are copied |
| Search.SearchMulti | src/lib/api/search.ts:61-65 | the results are exactly the accepted rows' contents, none longer than the input and none with a blank title |
| Search.SearchMultiAppend | src/lib/api/search.ts:64-65 | mapping a concatenation concatenates the results, so input order is kept |
| Search.TrendingContent | src/lib/api/search.ts:109-121 | a blank title becomes `(제목 없음)`; the requested media type is set; the release date is set only for movies; air date, countries and language only for series |
| Search.TrendingLimit | src/lib/api/search.ts:104 | a requested limit is raised to 1 when below it and kept otherwise; a missing one defaults to 10 |
| Search.GetTrending | src/lib/api/search.ts:103-123 | the output is the mapped prefix of the rows, of length min(limit, rows), each item with the requested media type |
| Seqs.MapTake | src/lib/api/search.ts:109-123 | mapping then slicing to n gives min(n, length) mapped items in order |
| Seqs.Take | src/app/api/home/route.ts:116-119 | `slice(0, n)` gives the prefix of length min(n, length) |
| Home.HomeCache | src/app/api/home/route.ts:13-14 | the home cache starts empty with a ten-minute lifetime |
| Home.HomeRetryWithinAMinute | src/app/api/home/route.ts:15 | the home limiter never asks a client to wait more than 60 seconds |
| Home.ParseLimit | src/app/api/home/route.ts:17-20 | an integer in 1..20 is accepted as is, a missing limit becomes 10, and anything else is a bad request |
| Home.HomeCacheKey | src/app/api/home/route.ts:73 | the key is the fixed prefix followed by the decimal limit |
| Home.HomeCacheKeyInjective | src/app/api/home/route.ts:72-73 | different limits give different cache keys |
| Home.HasAnyProvidersKr | src/app/api/home/route.ts:22-31 | true exactly when there is a KR record with at least one non-empty list |
| Home.NoKoreanRecordsNoViews | src/app/api/home/route.ts:22-31 | when the check fails, the KR region reports no providers in any tier |
| Home.TvIsDomestic | src/app/api/home/route.ts:89-93 | domestic exactly when the origin countries contain KR or the original language is ko |
| Home.SplitTv | src/app/api/home/route.ts:95-100 | Korean series are exactly the domestic items in order, foreign ones the rest, and together they are a partition |
| Home.FlaggedPartition | src/app/api/home/route.ts:107-113 | the streaming and theater lists together are a partition of the movies |
| Home.FlaggedAllSet | src/app/api/home/route.ts:107-113 | when every movie is flagged, all are streaming and none are theater-only |
| Home.SplitMovies | src/app/api/home/route.ts:107-113 | the loop computes the order-preserving split by the per-movie flags |
| Home.HomeFeed | src/app/api/home/route.ts:115-121 | each payload list is exactly the first min(limit, length) items of its partition: flagged movies, unflagged movies, domestic series, foreign series; so Korean series are domestic and foreign ones are not |
| Home.FeedKeepsAllUnderLimit | src/app/api/home/route.ts:107-119 | when the limit is at least the number of movies, the streaming and theater lists together hold every movie exactly once |
| ContentDetail.OttLabel | src/components/ContentDetail.tsx:24-31 | every filter value has a non-empty label |
| ContentDetail.OttLabelInjective | src/components/ContentDetail.tsx:24-31 | different filters have different labels |
| ContentDetail.UiKeysInCatalog | src/components/ContentDetail.tsx:33-34 | the shown keys are catalog keys, and every filter other than all names one of them |
| ContentDetail.PickProvidersForUi | src/components/ContentDetail.tsx:33-36 | the result is a subsequence keeping exactly the input keys that are among the five shown services, with every copy of a view of a shown service and no other view |
| ContentDetail.PickProvidersIdempotent | src/components/ContentDetail.tsx:33-36 | picking twice equals picking once |
| ContentDetail.WithKey | src/components/ContentDetail.tsx:40 | the result is the subsequence with the given key, holding every copy of each view with that key and nothing else; it is non-empty exactly when the key occurs |
| ContentDetail.ApplyOttFilter | src/components/ContentDetail.tsx:38-41 | `all` returns the list unchanged; any other filter returns the subsequence holding every view with its key and nothing else, non-empty exactly when the key occurs |
| ContentDetail.AtMostOneOnDistinctKeys | src/components/ContentDetail.tsx:40 | on a list with distinct keys, a service filter keeps at most one view |

## Left out

- Network, environment and validation. `fetch`, the API-key helpers and the zod schemas are not modelled; fetched data enters as datatypes.
- Popularity sort. It orders rows by floating-point popularity, so search and trending rows enter already sorted.
- Search.SearchMulti: does not model the popularity sort that precedes the map/filter step.
- Search.GetTrending: likewise does not model the popularity sort that precedes the mapping.
- Concurrency. `mapWithConcurrency` and the `Promise.all` fan-out are not modelled. The per-movie `hasKr` flags are an input to the home feed. A missing flag counts as false, as `hasKr[idx]` does.
- Home.ParseLimit: models zod's number coercion as the three-way `LimitParam` input (absent, an integer, anything else), not as string parsing.
- Text.Lower: lower-cases ASCII letters only. JavaScript's `toLowerCase` also maps other Unicode letters, some of them to ASCII letters.
- Tmdb.ReleaseYear: models only dates whose first four characters are digits. Other prefixes give no year, although `Number` would also parse forms like `" 199"`, `"+199"` or `"1e3"`.
- ImageHelpers.YearFromDate: the same four-digit-prefix restriction as `Tmdb.ReleaseYear`.
- Seqs.Take: the slice end is a natural number, because every call site passes a limit of at least 1.
- Seqs.MapTake: the same natural-number slice end.
- RateLimiter.CheckKeepsSound: assumes a limit of at least 1, as every limiter in the service has.
- RateLimiter.AtMostLimitPerWindow: assumes a limit of at least 1.
- The copies of `tmdbPosterUrl`, `tmdbLogoUrl` and `releaseYear` in `src/lib/api/_client.ts:33-47` are identical to those in `src/lib/tmdb.ts`. They are modelled once, in `Tmdb`.
- `display_priority` is never read by the pipeline, so `TmdbProvider` omits it.
- The hand-built no-results record of the movie route is not modelled. The `showPaid` invariant is stated for `buildRegionProviders` only.
- HTTP wiring is not modelled: responses, status codes, the `Retry-After` header and the other routes' cache keys.
- UI rendering is not modelled: React components, hooks and `localStorage`.
- The mock fixtures and the end-to-end and smoke scripts are not modelled.

=== FILE: api_client.dfy ===
/** `tmdbUrl`: API request URLs under the TMDB version-3 base. */
module ApiClient {
  import opened Text

  const ApiBase: string := "https://api.themoviedb.org/3"

  /** The base URL followed by the path, with a `/` inserted only when the
      path does not already start with one. */
  function TmdbUrl(path: string): (r: string)
    ensures StartsWith(r, ApiBase + "/")
    ensures StartsWith(path, "/") ==> r[|ApiBase|..] == path
    ensures !StartsWith(path, "/") ==> r[|ApiBase| + 1..] == path
  {
    var rooted := if StartsWith(path, "/") then path else "/" + path;
    var r := ApiBase + rooted;
    assert r[..|ApiBase| + 1] == ApiBase + "/";
    assert r[|ApiBase|..] == rooted;
    r
  }

  /** No slash is inserted when the path already starts with one: a path
      and the same path with its leading slash give one URL. */
  lemma LeadingSlashOptional(path: string)
    requires !StartsWith(path, "/")
    ensures TmdbUrl("/" + path) == TmdbUrl(path)
  {
    assert StartsWith("/" + path, "/");
  }

  /** Two paths give one URL only when they are equal up to that leading
      slash. */
  lemma TmdbUrlInjective(a: string, b: string)
    requires TmdbUrl(a) == TmdbUrl(b)
    ensures a == b || a == "/" + b || b == "/" + a
  {
    var ra, rb := TmdbUrl(a), TmdbUrl(b);
    assert ra[|ApiBase|..] == rb[|ApiBase|..];
    if StartsWith(a, "/") && !StartsWith(b, "/") {
      assert ra[|ApiBase|..] == "/" + b by {
        assert rb[|ApiBase|..] == [rb[|ApiBase|]] + rb[|ApiBase| + 1..];
      }
    } else if !StartsWith(a, "/") && StartsWith(b, "/") {
      assert rb[|ApiBase|..] == "/" + a by {
        assert ra[|ApiBase|..] == [ra[|ApiBase|]] + ra[|ApiBase| + 1..];
      }
    }
  }
}

=== FILE: catalog_aliases.dfy ===
/** What the whitelist's aliases normalise to, and the matcher restated on
    those normal forms: which names select which catalog entry. */
module CatalogAliases {
  import opened Options
  import opened Text
  import opened ProviderConfig

  /** The normal form of every alias, entry by entry, alias by alias. */
  const AliasForms: seq<seq<string>> := [
    ["netflix"],
    ["disneyplus", "disneyplus", "disneyplus"],
    ["tving"],
    ["coupangplay", "coupangplay"],
    ["wavve"],
    ["watcha", "watchaplay"],
    ["appletvplus", "appletvplus", "appletvplus", "appletv"]
  ]

  // ---------------------------------------------------------------------
  // Shapes of names: words separated by spaces, optionally ending in `+`

  /** A word that lower-cases to `[a-z0-9]*` normalises to its lower case. */
  lemma OneWord(s: string)
    requires AllLowerAlnum(Lower(s))
    ensures NormalizeName(s) == Lower(s)
  {
    NormalizeClean(s);
  }

  lemma SquashWord(a: string)
    requires AllLowerAlnum(Lower(a))
    ensures Squash(a) == Lower(a)
  {
    NormalizeClean(a);
    NormalizeIsSquash(a);
  }

  lemma SquashPlusSign(p: string)
    requires p == "+"
    ensures Squash(p) == "plus"
  {
    assert Lower(p) == p;
    assert ReplacePlus(p) == "plus";
    SquashWord("plus");
    assert Lower("plus") == "plus";
  }

  /** Squashing distributes over a split into two known pieces. */
  lemma SquashJoin(x: string, y: string, fx: string, fy: string)
    requires Squash(x) == fx && Squash(y) == fy
    ensures Squash(x + y) == fx + fy
  {
    SquashAppend(x, y);
  }

  /** Two words around a run of spaces: the spaces disappear. */
  lemma TwoWords(s: string, a: string, u: string, b: string)
    requires s == a + u + b && AllSpace(u)
    requires AllLowerAlnum(Lower(a)) && AllLowerAlnum(Lower(b))
    ensures NormalizeName(s) == Lower(a) + Lower(b)
  {
    SquashWord(a);
    SquashSpaces(u);
    SquashJoin(a, u, Lower(a), []);
    assert Lower(a) + [] == Lower(a);
    SquashWord(b);
    SquashJoin(a + u, b, Lower(a), Lower(b));
    NormalizeIsSquash(s);
  }

  lemma ThreeWords(s: string, a: string, u: string, b: string, v: string, c: string)
    requires s == a + u + b + v + c && AllSpace(u) && AllSpace(v)
    requires AllLowerAlnum(Lower(a)) && AllLowerAlnum(Lower(b)) && AllLowerAlnum(Lower(c))
    ensures NormalizeName(s) == Lower(a) + Lower(b) + Lower(c)
  {
    TwoWords(a + u + b, a, u, b);
    NormalizeIsSquash(a + u + b);
    SquashSpaces(v);
    SquashJoin(a + u + b, v, Lower(a) + Lower(b), []);
    assert Lower(a) + Lower(b) + [] == Lower(a) + Lower(b);
    SquashWord(c);
    SquashJoin(a + u + b + v, c, Lower(a) + Lower(b), Lower(c));
    NormalizeIsSquash(s);
  }

  /** A word followed by `+`: the sign becomes `plus`. */
  lemma WordPlus(s: string, a: string, p: string)
    requires s == a + p && p == "+"
    requires AllLowerAlnum(Lower(a))
    ensures NormalizeName(s) == Lower(a) + "plus"
  {
    SquashWord(a);
    SquashPlusSign(p);
    SquashJoin(a, p, Lower(a), "plus");
    NormalizeIsSquash(s);
  }

  lemma TwoWordsPlus(s: string, a: string, u: string, b: string, p: string)
    requires s == a + u + b + p && AllSpace(u) && p == "+"
    requires AllLowerAlnum(Lower(a)) && AllLowerAlnum(Lower(b))
    ensures NormalizeName(s) == Lower(a) + Lower(b) + "plus"
  {
    TwoWords(a + u + b, a, u, b);
    NormalizeIsSquash(a + u + b);
    SquashPlusSign(p);
    SquashJoin(a + u + b, p, Lower(a) + Lower(b), "plus");
    NormalizeIsSquash(s);
  }

  // ---------------------------------------------------------------------
  // The words that occur in the aliases and in the upstream names below

  lemma WordsA()
    ensures AllLowerAlnum(Lower("netflix")) && Lower("netflix") == "netflix"
    ensures AllLowerAlnum(Lower("disneyplus")) && Lower("disneyplus") == "disneyplus"
    ensures AllLowerAlnum(Lower("tving")) && Lower("tving") == "tving"
  {
  }

  lemma WordsB()
    ensures AllLowerAlnum(Lower("disney")) && Lower("disney") == "disney"
    ensures AllLowerAlnum(Lower("plus")) && Lower("plus") == "plus"
    ensures AllLowerAlnum(Lower("wavve")) && Lower("wavve") == "wavve"
  {
  }

  lemma WordsC()
    ensures AllLowerAlnum(Lower("coupangplay")) && Lower("coupangplay") == "coupangplay"
    ensures AllLowerAlnum(Lower("coupang")) && Lower("coupang") == "coupang"
    ensures AllLowerAlnum(Lower("play")) && Lower("play") == "play"
  {
  }

  lemma WordsD()
    ensures AllLowerAlnum(Lower("watcha")) && Lower("watcha") == "watcha"
    ensures AllLowerAlnum(Lower("appletvplus")) && Lower("appletvplus") == "appletvplus"
  {
  }

  lemma WordsE()
    ensures AllLowerAlnum(Lower("apple")) && Lower("apple") == "apple"
    ensures AllLowerAlnum(Lower("tv")) && Lower("tv") == "tv"
    ensures AllLowerAlnum(Lower("Netflix")) && Lower("Netflix") == "netflix"
  {
  }

  lemma WordsF()
    ensures AllLowerAlnum(Lower("Disney")) && Lower("Disney") == "disney"
    ensures AllLowerAlnum(Lower("Plus")) && Lower("Plus") == "plus"
    ensures AllLowerAlnum(Lower("Apple")) && Lower("Apple") == "apple"
    ensures AllLowerAlnum(Lower("TV")) && Lower("TV") == "tv"
  {
  }

  lemma Blank()
    ensures AllSpace(" ")
  {
  }

  /** How the spaced and signed names split into words. */
  lemma SplitsA()
    ensures "disney plus" == "disney" + " " + "plus"
    ensures "disney+" == "disney" + "+"
    ensures "disney" + "plus" == "disneyplus"
    ensures "coupang play" == "coupang" + " " + "play"
    ensures "coupang" + "play" == "coupangplay"
  {
  }

  lemma SplitsB()
    ensures "watcha play" == "watcha" + " " + "play"
    ensures "watcha" + "play" == "watchaplay"
    ensures "apple tv" == "apple" + " " + "tv"
    ensures "apple" + "tv" == "appletv"
  {
  }

  lemma SplitsC()
    ensures "apple tv plus" == "apple" + " " + "tv" + " " + "plus"
    ensures "apple tv+" == "apple" + " " + "tv" + "+"
    ensures "apple" + "tv" + "plus" == "appletvplus"
  {
  }

  lemma SplitsD()
    ensures "Disney Plus" == "Disney" + " " + "Plus"
    ensures "Disney+" == "Disney" + "+"
    ensures "Apple TV Plus" == "Apple" + " " + "TV" + " " + "Plus"
  {
  }

  // ---------------------------------------------------------------------
  // Normal forms of the aliases

  lemma NormNetflix(s: string)
    requires s == "netflix"
    ensures NormalizeName(s) == "netflix"
  {
    WordsA();
    OneWord(s);
  }

  lemma NormDisneyplus(s: string)
    requires s == "disneyplus"
    ensures NormalizeName(s) == "disneyplus"
  {
    WordsA();
    OneWord(s);
  }

  lemma NormDisneySpacePlus(s: string)
    requires s == "disney plus"
    ensures NormalizeName(s) == "disneyplus"
  {
    WordsB();
    Blank();
    SplitsA();
    TwoWords(s, "disney", " ", "plus");
  }

  lemma NormDisneySign(s: string)
    requires s == "disney+"
    ensures NormalizeName(s) == "disneyplus"
  {
    WordsB();
    SplitsA();
    WordPlus(s, "disney", "+");
  }

  lemma NormTving(s: string)
    requires s == "tving"
    ensures NormalizeName(s) == "tving"
  {
    WordsA();
    OneWord(s);
  }

  lemma NormCoupangplay(s: string)
    requires s == "coupangplay"
    ensures NormalizeName(s) == "coupangplay"
  {
    WordsC();
    OneWord(s);
  }

  lemma NormCoupangSpacePlay(s: string)
    requires s == "coupang play"
    ensures NormalizeName(s) == "coupangplay"
  {
    WordsC();
    Blank();
    SplitsA();
    TwoWords(s, "coupang", " ", "play");
  }

  lemma NormWavve(s: string)
    requires s == "wavve"
    ensures NormalizeName(s) == "wavve"
  {
    WordsB();
    OneWord(s);
  }

  lemma NormWatcha(s: string)
    requires s == "watcha"
    ensures NormalizeName(s) == "watcha"
  {
    WordsD();
    OneWord(s);
  }

  lemma NormWatchaSpacePlay(s: string)
    requires s == "watcha play"
    ensures NormalizeName(s) == "watchaplay"
  {
    WordsC();
    WordsD();
    Blank();
    SplitsB();
    TwoWords(s, "watcha", " ", "play");
  }

  lemma NormAppletvplus(s: string)
    requires s == "appletvplus"
    ensures NormalizeName(s) == "appletvplus"
  {
    WordsD();
    OneWord(s);
  }

  lemma NormAppleSpaceTvSpacePlus(s: string)
    requires s == "apple tv plus"
    ensures NormalizeName(s) == "appletvplus"
  {
    WordsB();
    WordsE();
    Blank();
    SplitsC();
    ThreeWords(s, "apple", " ", "tv", " ", "plus");
  }

  lemma NormAppleSpaceTvSign(s: string)
    requires s == "apple tv+"
    ensures NormalizeName(s) == "appletvplus"
  {
    WordsE();
    Blank();
    SplitsC();
    TwoWordsPlus(s, "apple", " ", "tv", "+");
  }

  lemma NormAppleSpaceTv(s: string)
    requires s == "apple tv"
    ensures NormalizeName(s) == "appletv"
  {
    WordsE();
    Blank();
    SplitsB();
    TwoWords(s, "apple", " ", "tv");
  }

  // ---------------------------------------------------------------------
  // Normal forms of names as the upstream service spells them

  lemma NormNetflixCap(s: string)
    requires s == "Netflix"
    ensures NormalizeName(s) == "netflix"
  {
    WordsE();
    OneWord(s);
  }

  lemma NormDisneyCapSign(s: string)
    requires s == "Disney+"
    ensures NormalizeName(s) == "disneyplus"
  {
    WordsF();
    SplitsA();
    SplitsD();
    WordPlus(s, "Disney", "+");
  }

  lemma NormDisneyCapSpacePlus(s: string)
    requires s == "Disney Plus"
    ensures NormalizeName(s) == "disneyplus"
  {
    WordsF();
    Blank();
    SplitsA();
    SplitsD();
    TwoWords(s, "Disney", " ", "Plus");
  }

  lemma NormAppleCapSpaceTvSpacePlus(s: string)
    requires s == "Apple TV Plus"
    ensures NormalizeName(s) == "appletvplus"
  {
    WordsF();
    Blank();
    SplitsC();
    SplitsD();
    ThreeWords(s, "Apple", " ", "TV", " ", "Plus");
  }

  // ---------------------------------------------------------------------
  // The catalog restated on normal forms

  /** Matching an entry with one, two, three or four aliases whose normal
      forms are known. */
  lemma Matches1(c: Config, f0: string, n: string)
    requires |c.matchNames| == 1 && NormalizeName(c.matchNames[0]) == f0
    ensures NameMatches(c, n) <==> n == f0
  {
    if n == f0 {
      assert NormalizeName(c.matchNames[0]) == n;
    }
    if NameMatches(c, n) {
      var k :| 0 <= k < |c.matchNames| && NormalizeName(c.matchNames[k]) == n;
      assert k == 0;
    }
  }

  lemma Matches2(c: Config, f0: string, f1: string, n: string)
    requires |c.matchNames| == 2
    requires NormalizeName(c.matchNames[0]) == f0 && NormalizeName(c.matchNames[1]) == f1
    ensures NameMatches(c, n) <==> n == f0 || n == f1
  {
    if n == f0 {
      assert NormalizeName(c.matchNames[0]) == n;
    }
    if n == f1 {
      assert NormalizeName(c.matchNames[1]) == n;
    }
    if NameMatches(c, n) {
      var k :| 0 <= k < |c.matchNames| && NormalizeName(c.matchNames[k]) == n;
      assert k == 0 || k == 1;
    }
  }

  lemma Matches3(c: Config, f0: string, f1: string, f2: string, n: string)
    requires |c.matchNames| == 3
    requires NormalizeName(c.matchNames[0]) == f0 && NormalizeName(c.matchNames[1]) == f1
    requires NormalizeName(c.matchNames[2]) == f2
    ensures NameMatches(c, n) <==> n == f0 || n == f1 || n == f2
  {
    if n == f0 {
      assert NormalizeName(c.matchNames[0]) == n;
    }
    if n == f1 {
      assert NormalizeName(c.matchNames[1]) == n;
    }
    if n == f2 {
      assert NormalizeName(c.matchNames[2]) == n;
    }
    if NameMatches(c, n) {
      var k :| 0 <= k < |c.matchNames| && NormalizeName(c.matchNames[k]) == n;
      assert k == 0 || k == 1 || k == 2;
    }
  }

  lemma Matches4(c: Config, f0: string, f1: string, f2: string, f3: string, n: string)
    requires |c.matchNames| == 4
    requires NormalizeName(c.matchNames[0]) == f0 && NormalizeName(c.matchNames[1]) == f1
    requires NormalizeName(c.matchNames[2]) == f2 && NormalizeName(c.matchNames[3]) == f3
    ensures NameMatches(c, n) <==> n == f0 || n == f1 || n == f2 || n == f3
  {
    if n == f0 {
      assert NormalizeName(c.matchNames[0]) == n;
    }
    if n == f1 {
      assert NormalizeName(c.matchNames[1]) == n;
    }
    if n == f2 {
      assert NormalizeName(c.matchNames[2]) == n;
    }
    if n == f3 {
      assert NormalizeName(c.matchNames[3]) == n;
    }
    if NameMatches(c, n) {
      var k :| 0 <= k < |c.matchNames| && NormalizeName(c.matchNames[k]) == n;
      assert k == 0 || k == 1 || k == 2 || k == 3;
    }
  }

  lemma FormsOf0(names: seq<string>)
    requires names == Whitelist[0].matchNames
    ensures |names| == 1
    ensures NormalizeName(names[0]) == "netflix"
  {
    NormNetflix(names[0]);
  }

  lemma MatchesOf0(n: string)
    ensures NameMatches(Whitelist[0], n) <==> n == "netflix"
  {
    FormsOf0(Whitelist[0].matchNames);
    Matches1(Whitelist[0], "netflix", n);
  }

  lemma InForms0(n: string)
    ensures n in AliasForms[0] <==> n == "netflix"
  {
  }

  lemma FormsOf1(names: seq<string>)
    requires names == Whitelist[1].matchNames
    ensures |names| == 3
    ensures NormalizeName(names[0]) == "disneyplus"
    ensures NormalizeName(names[1]) == "disneyplus"
    ensures NormalizeName(names[2]) == "disneyplus"
  {
    NormDisneyplus(names[0]);
    NormDisneySpacePlus(names[1]);
    NormDisneySign(names[2]);
  }

  lemma MatchesOf1(n: string)
    ensures NameMatches(Whitelist[1], n) <==> n == "disneyplus"
  {
    FormsOf1(Whitelist[1].matchNames);
    Matches3(Whitelist[1], "disneyplus", "disneyplus", "disneyplus", n);
  }

  lemma InForms1(n: string)
    ensures n in AliasForms[1] <==> n == "disneyplus"
  {
  }

  lemma FormsOf2(names: seq<string>)
    requires names == Whitelist[2].matchNames
    ensures |names| == 1
    ensures NormalizeName(names[0]) == "tving"
  {
    NormTving(names[0]);
  }

  lemma MatchesOf2(n: string)
    ensures NameMatches(Whitelist[2], n) <==> n == "tving"
  {
    FormsOf2(Whitelist[2].matchNames);
    Matches1(Whitelist[2], "tving", n);
  }

  lemma InForms2(n: string)
    ensures n in AliasForms[2] <==> n == "tving"
  {
  }

  lemma FormsOf3(names: seq<string>)
    requires names == Whitelist[3].matchNames
    ensures |names| == 2
    ensures NormalizeName(names[0]) == "coupangplay"
    ensures NormalizeName(names[1]) == "coupangplay"
  {
    NormCoupangplay(names[0]);
    NormCoupangSpacePlay(names[1]);
  }

  lemma MatchesOf3(n: string)
    ensures NameMatches(Whitelist[3], n) <==> n == "coupangplay"
  {
    FormsOf3(Whitelist[3].matchNames);
    Matches2(Whitelist[3], "coupangplay", "coupangplay", n);
  }

  lemma InForms3(n: string)
    ensures n in AliasForms[3] <==> n == "coupangplay"
  {
  }

  lemma FormsOf4(names: seq<string>)
    requires names == Whitelist[4].matchNames
    ensures |names| == 1
    ensures NormalizeName(names[0]) == "wavve"
  {
    NormWavve(names[0]);
  }

  lemma MatchesOf4(n: string)
    ensures NameMatches(Whitelist[4], n) <==> n == "wavve"
  {
    FormsOf4(Whitelist[4].matchNames);
    Matches1(Whitelist[4], "wavve", n);
  }

  lemma InForms4(n: string)
    ensures n in AliasForms[4] <==> n == "wavve"
  {
  }

  lemma FormsOf5(names: seq<string>)
    requires names == Whitelist[5].matchNames
    ensures |names| == 2
    ensures NormalizeName(names[0]) == "watcha"
    ensures NormalizeName(names[1]) == "watchaplay"
  {
    NormWatcha(names[0]);
    NormWatchaSpacePlay(names[1]);
  }

  lemma MatchesOf5(n: string)
    ensures NameMatches(Whitelist[5], n) <==> n == "watcha" || n == "watchaplay"
  {
    FormsOf5(Whitelist[5].matchNames);
    Matches2(Whitelist[5], "watcha", "watchaplay", n);
  }

  lemma InForms5(n: string)
    ensures n in AliasForms[5] <==> n == "watcha" || n == "watchaplay"
  {
  }

  lemma FormsOf6Head(names: seq<string>)
    requires names == Whitelist[6].matchNames
    ensures |names| == 4
    ensures NormalizeName(names[0]) == "appletvplus"
    ensures NormalizeName(names[1]) == "appletvplus"
  {
    var a, b := names[0], names[1];
    NormAppletvplus(a);
    NormAppleSpaceTvSpacePlus(b);
  }

  lemma FormsOf6Tail(names: seq<string>)
    requires names == Whitelist[6].matchNames
    ensures NormalizeName(names[2]) == "appletvplus"
    ensures NormalizeName(names[3]) == "appletv"
  {
    NormAppleSpaceTvSign(names[2]);
    NormAppleSpaceTv(names[3]);
  }

  lemma MatchesOf6(n: string)
    ensures NameMatches(Whitelist[6], n) <==> n == "appletvplus" || n == "appletv"
  {
    FormsOf6Head(Whitelist[6].matchNames);
    FormsOf6Tail(Whitelist[6].matchNames);
    Matches4(Whitelist[6], "appletvplus", "appletvplus", "appletvplus", "appletv", n);
  }

  lemma InForms6(n: string)
    ensures n in AliasForms[6] <==> n == "appletvplus" || n == "appletv"
  {
  }

  /** An entry matches a normalised name exactly when the name is one of
      the normal forms of its aliases. */
  lemma NameMatchesForms(i: nat, n: string)
    requires i < |Whitelist|
    ensures |AliasForms| == |Whitelist|
    ensures NameMatches(Whitelist[i], n) <==> n in AliasForms[i]
  {
    if i == 0 { MatchesOf0(n); InForms0(n); }
    else if i == 1 { MatchesOf1(n); InForms1(n); }
    else if i == 2 { MatchesOf2(n); InForms2(n); }
    else if i == 3 { MatchesOf3(n); InForms3(n); }
    else if i == 4 { MatchesOf4(n); InForms4(n); }
    else if i == 5 { MatchesOf5(n); InForms5(n); }
    else { MatchesOf6(n); InForms6(n); }
  }

  /** No normal form belongs to two entries, so the declared order never
      decides between entries. */
  lemma FormsDisjoint(i: nat, j: nat, n: string)
    requires i < j < |AliasForms| && n in AliasForms[i]
    ensures n !in AliasForms[j]
  {
  }

  // ---------------------------------------------------------------------
  // The matcher on the concrete whitelist

  /** `matchProvider` selects entry `i` exactly when the normalised name is
      one of entry `i`'s alias forms, whatever the provider id. */
  lemma MatchProviderForms(id: Option<int>, name: string, i: nat)
    requires i < |Whitelist|
    ensures |AliasForms| == |Whitelist|
    ensures MatchProvider(id, name) == Some(Whitelist[i]) <==> NormalizeName(name) in AliasForms[i]
  {
    var n := NormalizeName(name);
    forall j | 0 <= j < |Whitelist|
      ensures NameMatches(Whitelist[j], n) <==> n in AliasForms[j]
    {
      NameMatchesForms(j, n);
    }
    forall j, l | 0 <= j < l < |AliasForms| && n in AliasForms[j]
      ensures n !in AliasForms[l]
    {
      FormsDisjoint(j, l, n);
    }
    FirstFormSelects(Whitelist, AliasForms, n, MatchProvider(id, name), i);
  }

  /** The catalog-independent core of `MatchProviderForms`: when the
      entries a name matches are those listing it among their forms, and
      no name is the form of two entries, the first match is entry `i`
      exactly when the name is among entry `i`'s forms. */
  lemma FirstFormSelects(ps: seq<Config>, forms: seq<seq<string>>, n: string, r: Option<Config>, i: nat)
    requires |forms| == |ps| && i < |ps|
    requires forall j :: 0 <= j < |ps| ==> (NameMatches(ps[j], n) <==> n in forms[j])
    requires forall j, l :: 0 <= j < l < |forms| && n in forms[j] ==> n !in forms[l]
    requires r.None? <==> forall j :: 0 <= j < |ps| ==> !NameMatches(ps[j], n)
    requires r.Some? ==> exists j :: 0 <= j < |ps| && r.value == ps[j] && NameMatches(ps[j], n)
    ensures r == Some(ps[i]) <==> n in forms[i]
  {
    if n in forms[i] {
      var j :| 0 <= j < |ps| && r.value == ps[j] && NameMatches(ps[j], n);
      assert n in forms[j];
      assert j == i;
    }
  }

  /** `matchProvider` returns null exactly when the normalised name is no
      entry's alias form. */
  lemma NoMatchForms(id: Option<int>, name: string)
    ensures |AliasForms| == |Whitelist|
    ensures MatchProvider(id, name).None? <==>
              forall i :: 0 <= i < |AliasForms| ==> NormalizeName(name) !in AliasForms[i]
  {
    var n := NormalizeName(name);
    forall i | 0 <= i < |Whitelist|
      ensures NameMatches(Whitelist[i], n) <==> n in AliasForms[i]
    {
      NameMatchesForms(i, n);
    }
  }

  /** `Disney+`, `Disney Plus` and `disneyplus` all normalise to
      `disneyplus` and select the `disney` entry. */
  lemma DisneySpellings(id: Option<int>, s: string)
    requires s == "Disney+" || s == "Disney Plus" || s == "disneyplus"
    ensures NormalizeName(s) == "disneyplus"
    ensures MatchProvider(id, s) == Some(Whitelist[1])
  {
    if s == "Disney+" {
      NormDisneyCapSign(s);
    } else if s == "Disney Plus" {
      NormDisneyCapSpacePlus(s);
    } else {
      NormDisneyplus(s);
    }
    SelectsDisney(id, s);
  }

  lemma SelectsDisney(id: Option<int>, s: string)
    requires NormalizeName(s) == "disneyplus"
    ensures MatchProvider(id, s) == Some(Whitelist[1])
  {
    InForms1(NormalizeName(s));
    MatchProviderForms(id, s, 1);
  }

  lemma MatchNetflix(id: Option<int>, s: string)
    requires s == "Netflix"
    ensures MatchProvider(id, s) == Some(Whitelist[0])
  {
    NormNetflixCap(s);
    InForms0(NormalizeName(s));
    MatchProviderForms(id, s, 0);
  }

  lemma MatchAppleTvPlus(id: Option<int>, s: string)
    requires s == "Apple TV Plus"
    ensures MatchProvider(id, s) == Some(Whitelist[6])
  {
    NormAppleCapSpaceTvSpacePlus(s);
    InForms6(NormalizeName(s));
    MatchProviderForms(id, s, 6);
  }
}

=== FILE: client_ip.dfy ===
/** `getClientIp`: the caller's address as the rate limiters key it, read
    from the forwarding headers a proxy sets. */
module ClientIp {
  import opened Options
  import opened Text

  /** The address used when neither header says anything. */
  const Loopback: string := "127.0.0.1"

  /** The client address from the `x-forwarded-for` and `x-real-ip` header
      values (`None` for a missing header). An empty header value counts as
      missing; a present forwarding chain decides alone. */
  function GetClientIp(forwardedFor: Option<string>, realIp: Option<string>): (r: string)
    ensures forwardedFor.Some? && forwardedFor.value != "" ==> r == FirstHop(forwardedFor.value)
    ensures (forwardedFor.None? || forwardedFor.value == "") && (realIp.None? || realIp.value == "") ==>
              r == Loopback
    ensures (forwardedFor.None? || forwardedFor.value == "") && realIp.Some? && realIp.value != "" ==>
              r == Trim(realIp.value)
  {
    if forwardedFor.Some? && forwardedFor.value != "" then FirstHop(forwardedFor.value)
    else if realIp.Some? && realIp.value != "" then Trim(realIp.value)
    else Loopback
  }

  /** Whatever the headers, the address carries no white space at its
      ends. */
  lemma NoSurroundingSpace(forwardedFor: Option<string>, realIp: Option<string>)
    ensures var r := GetClientIp(forwardedFor, realIp);
      r == [] || (!IsSpace(r[0]) && !IsSpace(r[|r| - 1]))
  {
    if forwardedFor.Some? && forwardedFor.value != "" {
      var t := FirstHop(forwardedFor.value);
      assert GetClientIp(forwardedFor, realIp) == t;
    } else if realIp.Some? && realIp.value != "" {
      var t := Trim(realIp.value);
      assert GetClientIp(forwardedFor, realIp) == t;
    } else {
      assert GetClientIp(forwardedFor, realIp) == Loopback;
      assert Loopback[0] == '1' && Loopback[|Loopback| - 1] == '1';
    }
  }

  /** `xff.split(',')[0].trim()`: the first address of a forwarding chain,
      that is the trimmed text before the first comma, or the whole chain
      trimmed when it has no comma. */
  function FirstHop(xff: string): (r: string)
    ensures ',' !in r
    ensures exists i, j :: 0 <= i <= j <= |xff| && r == xff[i..j] && ',' !in xff[..j]
    ensures exists k :: 0 <= k <= |xff| && ',' !in xff[..k] && (k == |xff| || xff[k] == ',')
                        && r == Trim(xff[..k])
    ensures r == [] || (!IsSpace(r[0]) && !IsSpace(r[|r| - 1]))
  {
    FirstHopFacts(xff);
    Trim(BeforeFirst(xff, ','))
  }

  /** The trimmed first hop is a comma-free slice of the header that lies
      before its first comma. */
  lemma FirstHopFacts(xff: string)
    ensures var r := Trim(BeforeFirst(xff, ','));
      ',' !in r && exists i, j :: 0 <= i <= j <= |xff| && r == xff[i..j] && ',' !in xff[..j]
    ensures exists k :: 0 <= k <= |xff| && ',' !in xff[..k] && (k == |xff| || xff[k] == ',')
                        && Trim(BeforeFirst(xff, ',')) == Trim(xff[..k])
  {
    var first := BeforeFirst(xff, ',');
    assert first == xff[..|first|];
    var r := Trim(first);
    var i, j :| 0 <= i <= j <= |first| && r == first[i..j];
    PrefixSlices(first, xff, i, j);
    SliceKeepsAbsence(first, ',', 0, j);
    SliceKeepsAbsence(first, ',', i, j);
  }

  lemma PrefixSlices(p: string, s: string, i: int, j: int)
    requires |p| <= |s| && p == s[..|p|] && 0 <= i <= j <= |p|
    ensures p[i..j] == s[i..j] && p[..j] == s[..j]
  {
  }

  lemma SliceKeepsAbsence(s: string, c: char, i: int, j: int)
    requires c !in s && 0 <= i <= j <= |s|
    ensures c !in s[i..j]
  {
  }

  /** A non-empty `x-forwarded-for` wins: `x-real-ip` is then not read. */
  lemma ForwardedForWins(xff: string, a: Option<string>, b: Option<string>)
    requires xff != ""
    ensures GetClientIp(Some(xff), a) == GetClientIp(Some(xff), b)
  {
  }

  /** The first hop is taken whatever the later hops are. */
  lemma FirstHopOnly(hop: string, rest: string, realIp: Option<string>)
    requires ',' !in hop && hop != ""
    ensures GetClientIp(Some(hop + "," + rest), realIp) == Trim(hop)
  {
    var s := hop + "," + rest;
    assert s[..|hop|] == hop && s[|hop|] == ',';
    BeforeFirstPrefix(s, hop);
  }

  /** A header naming a single address, with no comma at all, gives that
      address trimmed. */
  lemma SingleHop(xff: string, realIp: Option<string>)
    requires xff != "" && ',' !in xff
    ensures GetClientIp(Some(xff), realIp) == Trim(xff)
  {
    BeforeFirstAbsent(xff, ',');
  }

  lemma {:induction false} BeforeFirstPrefix(s: string, hop: string)
    requires |hop| < |s| && s[..|hop|] == hop && s[|hop|] == ',' && ',' !in hop
    ensures BeforeFirst(s, ',') == hop
  {
    if hop != [] {
      assert s[1..][..|hop| - 1] == hop[1..];
      BeforeFirstPrefix(s[1..], hop[1..]);
    }
  }

  /** An empty first hop gives the empty address; the fallbacks are not
      consulted. */
  lemma EmptyFirstHop(rest: string, realIp: Option<string>)
    ensures GetClientIp(Some("," + rest), realIp) == ""
  {
    assert ("," + rest)[0] == ',';
  }
}

=== FILE: content_detail.dfy ===
/** The provider filters of the title detail view: which catalog services
    the view shows at all, and the per-service filter chips. */
module ContentDetail {
  import opened Seqs
  import opened Types
  import opened ProviderConfig

  /** The filter chips: everything, or one streaming service. */
  datatype OttFilter = All | Netflix | Disney | Tving | Wavve | CoupangPlay

  /** The catalog key a service chip selects. */
  function FilterKey(f: OttFilter): string
    requires !f.All?
  {
    match f
    case Netflix => "netflix"
    case Disney => "disney"
    case Tving => "tving"
    case Wavve => "wavve"
    case CoupangPlay => "coupangplay"
  }

  /** `ottLabel(key)`: the chip's Korean caption. */
  function OttLabel(f: OttFilter): (s: string)
    ensures s != ""
  {
    match f
    case All => "전체"
    case Netflix => "넷플릭스"
    case Disney => "디즈니+"
    case Tving => "티빙"
    case Wavve => "웨이브"
    case CoupangPlay => "쿠팡플레이"
  }

  /** No two chips share a caption. */
  lemma OttLabelInjective(a: OttFilter, b: OttFilter)
    requires OttLabel(a) == OttLabel(b)
    ensures a == b
  {
    assert OttLabel(All)[0] != OttLabel(Netflix)[0];
  }

  /** The services the view shows; Watcha and Apple TV+ are not among them. */
  const UiKeys: set<string> := {"netflix", "disney", "tving", "wavve", "coupangplay"}

  /** Every shown service, and every chip, is a catalog key. */
  lemma UiKeysInCatalog(f: OttFilter)
    ensures forall k :: k in UiKeys ==> IsCatalogKey(k)
    ensures !f.All? ==> FilterKey(f) in UiKeys
  {
    assert Whitelist[0].key == "netflix" && Whitelist[1].key == "disney" && Whitelist[2].key == "tving";
    assert Whitelist[3].key == "coupangplay" && Whitelist[4].key == "wavve";
  }

  predicate Shown(v: ProviderView) {
    v.key in UiKeys
  }

  /** `pickProvidersForUi(all)`: the views of shown services, in order. */
  function PickProvidersForUi(all: seq<ProviderView>): (r: seq<ProviderView>)
    ensures IsSubseq(r, all)
    ensures forall i :: 0 <= i < |r| ==> r[i].key in UiKeys
    ensures KeySet(r) == KeySet(all) * UiKeys
    ensures forall v :: multiset(r)[v] == if v.key in UiKeys then multiset(all)[v] else 0
  {
    var r := Filter(all, Shown);
    FilterCounts(all, Shown);
    FilterIsSubseq(all, Shown);
    FilterSound(all, Shown);
    FilterKeys(all, Shown);
    r
  }

  /** Some view of `s` with key `k` passes `p`. */
  ghost predicate HasPassingKey(s: seq<ProviderView>, k: string, p: ProviderView -> bool) {
    exists i :: 0 <= i < |s| && s[i].key == k && p(s[i])
  }

  /** The keys a filter keeps are the keys that pass. */
  lemma {:induction false} FilterKeys(s: seq<ProviderView>, p: ProviderView -> bool)
    ensures forall k :: k in KeySet(Filter(s, p)) <==> HasPassingKey(s, k, p)
  {
    if s != [] {
      FilterKeys(s[1..], p);
      FilterCons(s[0], s[1..], p);
      assert s == [s[0]] + s[1..];
      KeySetCons(s[0], Filter(s[1..], p));
      forall k ensures HasPassingKey(s, k, p) <==> (s[0].key == k && p(s[0])) || HasPassingKey(s[1..], k, p) {
        if HasPassingKey(s, k, p) {
          var i :| 0 <= i < |s| && s[i].key == k && p(s[i]);
          if i > 0 {
            assert s[1..][i - 1] == s[i];
          }
        }
        if HasPassingKey(s[1..], k, p) {
          var i :| 0 <= i < |s[1..]| && s[1..][i].key == k && p(s[1..][i]);
          assert s[i + 1] == s[1..][i];
        }
      }
    }
  }

  lemma PickProvidersIdempotent(all: seq<ProviderView>)
    ensures PickProvidersForUi(PickProvidersForUi(all)) == PickProvidersForUi(all)
  {
    FilterIdempotent(all, Shown);
  }

  /** The views of `arr` with key `k`, in order. */
  function WithKey(arr: seq<ProviderView>, k: string): (r: seq<ProviderView>)
    ensures IsSubseq(r, arr) && forall i :: 0 <= i < |r| ==> r[i].key == k
    ensures r != [] <==> k in KeySet(arr)
    ensures forall v :: multiset(r)[v] == if v.key == k then multiset(arr)[v] else 0
  {
    if arr == [] then []
    else
      var rest := WithKey(arr[1..], k);
      assert arr == [arr[0]] + arr[1..];
      KeySetCons(arr[0], arr[1..]);
      CountsCons(arr[0], arr[1..], rest, k);
      if arr[0].key == k then
        assert ([arr[0]] + rest)[1..] == rest;
        [arr[0]] + rest
      else
        SubseqCons(rest, arr[1..], arr[0]);
        rest
  }

  /** The count step of `WithKey`: a head with key `k` is counted once
      more on both sides, any other head on neither. */
  lemma CountsCons(x: ProviderView, t: seq<ProviderView>, rest: seq<ProviderView>, k: string)
    requires forall v :: multiset(rest)[v] == if v.key == k then multiset(t)[v] else 0
    ensures forall v :: multiset((if x.key == k then [x] else []) + rest)[v]
                        == if v.key == k then multiset([x] + t)[v] else 0
  {
  }

  /** In a list with one view per key, at most one view has a given key. */
  lemma {:induction false} WithKeyDistinct(arr: seq<ProviderView>, k: string)
    requires DistinctKeys(arr)
    ensures |WithKey(arr, k)| <= 1
  {
    if arr != [] {
      assert arr == [arr[0]] + arr[1..];
      DistinctKeysCons(arr[0], arr[1..]);
      WithKeyDistinct(arr[1..], k);
    }
  }

  /** `applyOttFilter(arr, filter)`. */
  function ApplyOttFilter(arr: seq<ProviderView>, f: OttFilter): (r: seq<ProviderView>)
    ensures f.All? ==> r == arr
    ensures !f.All? ==> IsSubseq(r, arr) && forall i :: 0 <= i < |r| ==> r[i].key == FilterKey(f)
    ensures !f.All? ==> (r != [] <==> FilterKey(f) in KeySet(arr))
    ensures !f.All? ==> forall v :: multiset(r)[v] == if v.key == FilterKey(f) then multiset(arr)[v] else 0
  {
    if f.All? then arr else WithKey(arr, FilterKey(f))
  }

  /** On a list with one view per key, such as a deduplicated provider
      tier, a service chip keeps at most one view. */
  lemma AtMostOneOnDistinctKeys(arr: seq<ProviderView>, f: OttFilter)
    requires DistinctKeys(arr) && !f.All?
    ensures |ApplyOttFilter(arr, f)| <= 1
  {
    WithKeyDistinct(arr, FilterKey(f));
  }
}

=== FILE: home.dfy ===
/** The home feed: trending movies split into those streamable in Korea
    and those only in theaters, trending series split into Korean and
    foreign ones, each list cut to the requested length. */
module Home {
  import opened Options
  import opened Text
  import opened Seqs
  import opened Types
  import opened Providers
  import opened ProviderTransform
  import opened TtlCache
  import opened RateLimiter

  /** The response cache's lifetime, ten minutes. */
  const TenMinutesMs: int := 10 * 60 * 1000

  /** The home endpoint's limiter: sixty calls a minute per client. */
  const HomeLimiter: Limiter := Limiter(60, 60 * 1000, map[])

  /** The home endpoint's empty response cache. */
  function HomeCache<T>(): (c: Cache<T>)
    ensures c.ttlMs == 600000 && c.store == map[]
  {
    Cache(TenMinutesMs, map[])
  }

  /** A client turned away by the home limiter is asked to wait one minute
      at most. */
  lemma HomeRetryWithinAMinute(states: map<string, WindowState>, key: string, now: int)
    requires key in states && states[key].windowStartMs <= now
    requires Check(HomeLimiter.(states := states), key, now).decision.Reject?
    ensures 1 <= Check(HomeLimiter.(states := states), key, now).decision.retryAfterSec <= 60
  {
    RetryAfterBounds(HomeLimiter.(states := states), key, now);
  }

  // ---------------------------------------------------------------------
  // The `limit` query parameter

  /** The `limit` parameter after numeric coercion: absent, an integer, or
      something that is not an integer. */
  datatype LimitParam = Missing | Integer(n: int) | NotAnInteger

  /** The validated limit, or `None` for a bad request: an integer in
      1..20, or 10 when the parameter is absent. */
  function ParseLimit(p: LimitParam): (r: Option<int>)
    ensures r.Some? <==> p.Missing? || (p.Integer? && 1 <= p.n <= 20)
    ensures r.Some? ==> 1 <= r.value <= 20
    ensures p.Missing? ==> r == Some(10)
    ensures p.Integer? && r.Some? ==> r.value == p.n
  {
    match p
    case Missing => Some(10)
    case Integer(n) => if 1 <= n <= 20 then Some(n) else None
    case NotAnInteger => None
  }

  const CacheKeyPrefix: string := "home:v1:ko-KR:limit="

  /** The response cache key: the limit is the only input. */
  function HomeCacheKey(limit: nat): (k: string)
    ensures StartsWith(k, CacheKeyPrefix)
    ensures k[|CacheKeyPrefix|..] == DecimalString(limit)
  {
    var k := CacheKeyPrefix + DecimalString(limit);
    assert k[..|CacheKeyPrefix|] == CacheKeyPrefix;
    k
  }

  /** Different limits never share a cache entry. */
  lemma HomeCacheKeyInjective(a: nat, b: nat)
    requires HomeCacheKey(a) == HomeCacheKey(b)
    ensures a == b
  {
    DecimalStringInjective(a, b);
  }

  // ---------------------------------------------------------------------
  // Partitions

  /** `hasAnyProvidersKr`: Korea has a record with at least one raw
      provider in any of its four lists. */
  function HasAnyProvidersKr(results: Regions): (b: bool)
    ensures b <==> "KR" in results
                   && (Items(results["KR"].flatrate) != [] || Items(results["KR"].free) != []
                       || Items(results["KR"].rent) != [] || Items(results["KR"].buy) != [])
  {
    match Lookup(results, "KR")
    case None => false
    case Some(kr) =>
      |Items(kr.flatrate)| + |Items(kr.free)| + |Items(kr.rent)| + |Items(kr.buy)| > 0
  }

  /** A movie without any Korean provider record gets no Korean views. */
  lemma NoKoreanRecordsNoViews(results: Regions)
    requires !HasAnyProvidersKr(results)
    ensures var kr := ProvidersForKorea(results).kr;
      kr.primaryProviders == [] && kr.paidProviders.rent == [] && kr.paidProviders.buy == []
  {
  }

  /** A series is domestic when Korea is among its origin countries or its
      original language is Korean. */
  function TvIsDomestic(c: Content): (b: bool)
    ensures b <==> (exists i :: 0 <= i < |c.originCountry.GetOr([])| && c.originCountry.GetOr([])[i] == "KR")
                   || c.originalLanguage == Some("ko")
  {
    if "KR" in c.originCountry.GetOr([]) then true else c.originalLanguage == Some("ko")
  }

  /** The loop splitting trending series: domestic ones in order, the rest
      in order. */
  method SplitTv(tvBase: seq<Content>) returns (krTv: seq<Content>, globalTv: seq<Content>)
    ensures krTv == Filter(tvBase, TvIsDomestic)
    ensures globalTv == Filter(tvBase, c => !TvIsDomestic(c))
    ensures |krTv| + |globalTv| == |tvBase|
    ensures multiset(krTv) + multiset(globalTv) == multiset(tvBase)
  {
    krTv, globalTv := [], [];
    var i := 0;
    while i < |tvBase|
      invariant 0 <= i <= |tvBase|
      invariant krTv == Filter(tvBase[..i], TvIsDomestic)
      invariant globalTv == Filter(tvBase[..i], c => !TvIsDomestic(c))
    {
      var c := tvBase[i];
      assert tvBase[..i + 1] == tvBase[..i] + [c];
      FilterAppend(tvBase[..i], [c], TvIsDomestic);
      FilterAppend(tvBase[..i], [c], c => !TvIsDomestic(c));
      if TvIsDomestic(c) {
        krTv := krTv + [c];
      } else {
        globalTv := globalTv + [c];
      }
      i := i + 1;
    }
    assert tvBase[..i] == tvBase;
    FilterPartition(tvBase, TvIsDomestic, c => !TvIsDomestic(c));
  }

  /** `hasKr[idx]` read the way the loop reads it: a missing flag is
      falsy. */
  function Flag(flags: seq<bool>, i: nat): bool {
    i < |flags| && flags[i]
  }

  /** The movies whose flag is `want`, in order. */
  function Flagged(movies: seq<Content>, flags: seq<bool>, want: bool): seq<Content>
    decreases |movies|
  {
    if movies == [] then []
    else
      var last := |movies| - 1;
      Flagged(movies[..last], flags, want) + (if Flag(flags, last) == want then [movies[last]] else [])
  }

  /** The flags split the movies in two without loss or duplication. */
  lemma {:induction false} FlaggedPartition(movies: seq<Content>, flags: seq<bool>)
    ensures |Flagged(movies, flags, true)| + |Flagged(movies, flags, false)| == |movies|
    ensures multiset(Flagged(movies, flags, true)) + multiset(Flagged(movies, flags, false)) == multiset(movies)
    decreases |movies|
  {
    if movies != [] {
      var last := |movies| - 1;
      FlaggedPartition(movies[..last], flags);
      assert movies == movies[..last] + [movies[last]];
    }
  }

  /** With a flag for every movie and every flag set, all movies are
      streamable and none is theater-only. */
  lemma {:induction false} FlaggedAllSet(movies: seq<Content>, flags: seq<bool>)
    requires |flags| >= |movies| && forall i :: 0 <= i < |movies| ==> flags[i]
    ensures Flagged(movies, flags, true) == movies
    ensures Flagged(movies, flags, false) == []
    decreases |movies|
  {
    if movies != [] {
      var last := |movies| - 1;
      FlaggedAllSet(movies[..last], flags);
      assert movies == movies[..last] + [movies[last]];
    }
  }

  /** The loop splitting trending movies by their Korean-provider flag. */
  method SplitMovies(movieBase: seq<Content>, hasKr: seq<bool>) returns (ott: seq<Content>, theater: seq<Content>)
    ensures ott == Flagged(movieBase, hasKr, true)
    ensures theater == Flagged(movieBase, hasKr, false)
  {
    ott, theater := [], [];
    var idx := 0;
    while idx < |movieBase|
      invariant 0 <= idx <= |movieBase|
      invariant ott == Flagged(movieBase[..idx], hasKr, true)
      invariant theater == Flagged(movieBase[..idx], hasKr, false)
    {
      var m := movieBase[idx];
      assert movieBase[..idx + 1][..idx] == movieBase[..idx];
      if Flag(hasKr, idx) {
        ott := ott + [m];
      } else {
        theater := theater + [m];
      }
      idx := idx + 1;
    }
    assert movieBase[..idx] == movieBase;
  }

  /** When the limit covers every movie, the streaming and theater lists of
      the feed together hold each movie exactly once. */
  lemma FeedKeepsAllUnderLimit(limit: nat, movieBase: seq<Content>, hasKr: seq<bool>)
    requires |movieBase| <= limit
    ensures multiset(Take(Flagged(movieBase, hasKr, true), limit))
            + multiset(Take(Flagged(movieBase, hasKr, false), limit)) == multiset(movieBase)
  {
    FlaggedPartition(movieBase, hasKr);
    var a, b := Flagged(movieBase, hasKr, true), Flagged(movieBase, hasKr, false);
    assert Take(a, limit) == a[..|a|] == a;
    assert Take(b, limit) == b[..|b|] == b;
  }

  /** The four lists of the home response. */
  datatype HomePayload = HomePayload(
    ottMovies: seq<Content>,
    theaterMovies: seq<Content>,
    krTv: seq<Content>,
    globalTv: seq<Content>)

  /** The home feed after the fetches: split, then cut each list to
      `limit`. */
  method HomeFeed(limit: nat, movieBase: seq<Content>, tvBase: seq<Content>, hasKr: seq<bool>)
    returns (p: HomePayload)
    ensures |p.ottMovies| <= limit && |p.theaterMovies| <= limit
    ensures |p.krTv| <= limit && |p.globalTv| <= limit
    ensures p.ottMovies == Take(Flagged(movieBase, hasKr, true), limit)
    ensures p.theaterMovies == Take(Flagged(movieBase, hasKr, false), limit)
    ensures p.krTv == Take(Filter(tvBase, TvIsDomestic), limit)
    ensures p.globalTv == Take(Filter(tvBase, c => !TvIsDomestic(c)), limit)
    ensures forall i :: 0 <= i < |p.krTv| ==> TvIsDomestic(p.krTv[i])
    ensures forall i :: 0 <= i < |p.globalTv| ==> !TvIsDomestic(p.globalTv[i])
  {
    var krTv, globalTv := SplitTv(tvBase);
    var ott, theater := SplitMovies(movieBase, hasKr);
    FilterSound(tvBase, TvIsDomestic);
    FilterSound(tvBase, c => !TvIsDomestic(c));
    p := HomePayload(Take(ott, limit), Take(theater, limit), Take(krTv, limit), Take(globalTv, limit));
  }
}

=== FILE: image_helpers.dfy ===
/** The poster-URL and year helpers the detail view uses. They differ from
    the TMDB helpers in one respect: a blank poster path gives no URL. */
module ImageHelpers {
  import opened Options
  import opened Text
  import opened Tmdb

  /** `posterUrlFromPath(path, size)`: no URL for a missing, empty or
      whitespace-only path; the path itself is used untrimmed. */
  function PosterUrlFromPath(path: Option<string>, size: PosterSize): (r: Option<string>)
    ensures r.None? <==> path.None? || AllSpace(path.value)
    ensures r.Some? ==> r == PosterUrl(path, size)
    ensures r.Some? ==> r.value == ImagePrefix(PosterSizeName(size)) + path.value
  {
    if path.None? || Trim(path.value) == "" then None
    else
      var url := PosterUrl(path, size);
      assert url.value == url.value[..|ImagePrefix(PosterSizeName(size))|] + url.value[|ImagePrefix(PosterSizeName(size))|..];
      url
  }

  /** The two poster helpers disagree exactly on non-empty blank paths. */
  lemma PosterHelpersDisagreeOnBlank(path: Option<string>, size: PosterSize)
    ensures PosterUrlFromPath(path, size) != PosterUrl(path, size)
            <==> path.Some? && path.value != "" && AllSpace(path.value)
  {
  }

  /** `yearFromDate(date)`: the same reading of the year as `releaseYear`. */
  function YearFromDate(date: Option<string>): (r: Option<nat>)
    ensures date.None? || date.value == "" ==> r.None?
    ensures date.Some? && date.value != "" && AllDigits(YearPrefix(date.value)) ==>
              r == Some(DecimalValue(YearPrefix(date.value)))
  {
    ReleaseYear(date)
  }

  /** A `YYYY-MM-DD` date gives back its year. */
  lemma YearFromIsoDate(y: nat, rest: string)
    requires 1000 <= y < 10000
    ensures YearFromDate(Some(DecimalString(y) + rest)) == Some(y)
  {
    ReleaseYearOfRendered(y, rest);
  }
}

=== FILE: options.dfy ===
/** Optional values. `None` stands for both `null` and `undefined` of the
    modelled program, which treats the two alike wherever it reads them. */
module Options {

  datatype Option<+T> = None | Some(value: T) {

    /** The value, or `default` when absent (the program's `x ?? default`). */
    function GetOr(default: T): T {
      match this
      case Some(v) => v
      case None => default
    }
  }
}

=== FILE: provider_cases.dfy ===
/** The three worked region scenarios of the provider test script, as
    lemmas over records with the scenario's provider names (ids, logos and
    links are left free: the outcome does not depend on them). */
module ProviderCases {
  import opened Options
  import opened Seqs
  import opened Types
  import opened StableSort
  import opened ProviderConfig
  import opened CatalogAliases
  import opened ProviderTransform
  import opened Providers

  /** The keys of a list of views, in order (`arr.map(x => x.key)`). */
  function Keys(s: seq<ProviderView>): (r: seq<string>)
    ensures |r| == |s| && forall i :: 0 <= i < |s| ==> r[i] == s[i].key
  {
    seq(|s|, i requires 0 <= i < |s| => s[i].key)
  }

  lemma NetflixRecord(p: TmdbProvider)
    requires p.providerName == "Netflix"
    ensures MatchOf(p) == Some(Whitelist[0])
  {
    MatchNetflix(Some(p.providerId), p.providerName);
  }

  lemma DisneyRecord(p: TmdbProvider)
    requires p.providerName == "Disney Plus"
    ensures MatchOf(p) == Some(Whitelist[1])
  {
    DisneySpellings(Some(p.providerId), p.providerName);
  }

  lemma AppleRecord(p: TmdbProvider)
    requires p.providerName == "Apple TV Plus"
    ensures MatchOf(p) == Some(Whitelist[6])
  {
    MatchAppleTvPlus(Some(p.providerId), p.providerName);
  }

  lemma CatalogKeys()
    ensures Whitelist[0].key == "netflix" && Whitelist[1].key == "disney" && Whitelist[6].key == "appletvplus"
  {
  }

  lemma ToViewsNone(link: Option<string>)
    ensures ToViews(None, link) == []
  {
  }

  /** `toViews` of a present list is the sorted result of the loop. */
  lemma ToViewsUnfold(ps: seq<TmdbProvider>, link: Option<string>)
    ensures ToViews(Some(ps), link) == SortProviders(CollectViews(ps, link, MatchOf, {}))
  {
  }

  lemma CollectOne(p: TmdbProvider, link: Option<string>, matcher: TmdbProvider -> Option<Config>, c: Config)
    requires matcher(p) == Some(c)
    ensures CollectViews([p], link, matcher, {}) == [ViewFor(c, p, link)]
  {
    assert [p][1..] == [];
  }

  lemma CollectTwo(p: TmdbProvider, q: TmdbProvider, link: Option<string>, matcher: TmdbProvider -> Option<Config>, c: Config, d: Config)
    requires matcher(p) == Some(c) && matcher(q) == Some(d) && c.key != d.key
    ensures CollectViews([p, q], link, matcher, {}) == [ViewFor(c, p, link), ViewFor(d, q, link)]
  {
    assert [p, q][1..] == [q] && [q][1..] == [];
    var w := ViewFor(d, q, link);
    assert d.key !in {c.key};
    assert CollectViews([q], link, matcher, {c.key}) == [w] + CollectViews([], link, matcher, {c.key} + {d.key});
    assert [p, q][0] == p && {} + {c.key} == {c.key};
    assert CollectViews([p, q], link, matcher, {}) == [ViewFor(c, p, link)] + CollectViews([q], link, matcher, {c.key});
  }

  /** A list of one matched record gives its one view. */
  lemma ToViewsOne(p: TmdbProvider, link: Option<string>, i: nat)
    requires i < |Whitelist| && MatchOf(p) == Some(Whitelist[i])
    ensures ToViews(Some([p]), link) == [ViewFor(Whitelist[i], p, link)]
  {
    ToViewsUnfold([p], link);
    CollectOne(p, link, MatchOf, Whitelist[i]);
    SortBySorted([ViewFor(Whitelist[i], p, link)], OrderOf);
  }

  /** Two records matching different entries, listed in catalog order,
      give their two views in that order. */
  lemma ToViewsTwo(p: TmdbProvider, q: TmdbProvider, link: Option<string>, i: nat, j: nat)
    requires i < j < |Whitelist| && MatchOf(p) == Some(Whitelist[i]) && MatchOf(q) == Some(Whitelist[j])
    ensures ToViews(Some([p, q]), link) == [ViewFor(Whitelist[i], p, link), ViewFor(Whitelist[j], q, link)]
  {
    OrderOfEntry(i);
    OrderOfEntry(j);
    ToViewsUnfold([p, q], link);
    CollectTwo(p, q, link, MatchOf, Whitelist[i], Whitelist[j]);
    SortTwo(ViewFor(Whitelist[i], p, link), ViewFor(Whitelist[j], q, link));
  }

  lemma SortTwo(v: ProviderView, w: ProviderView)
    requires OrderOf(v.key) <= OrderOf(w.key)
    ensures SortProviders([v, w]) == [v, w]
  {
    SortBySorted([v, w], OrderOf);
  }

  /** Merging a two-view tier with distinct keys, already in order, with
      an empty one leaves it as it is. */
  lemma MergeWithEmpty(s: seq<ProviderView>)
    requires DistinctKeys(s) && SortedByOrder(s)
    ensures MergePrimary(s, []) == s
  {
    assert s + [] == s;
    DedupFromDistinct(s, {});
    SortBySorted(s, OrderOf);
  }

  /** Case 1: Netflix and Disney Plus on flatrate, Apple TV Plus to rent and
      buy. The primary tier is Netflix then Disney+, the paid tier is hidden
      but still computed. */
  lemma Case1(e: CountryProviders, n: TmdbProvider, d: TmdbProvider, a: TmdbProvider)
    requires n.providerName == "Netflix" && d.providerName == "Disney Plus" && a.providerName == "Apple TV Plus"
    requires e.flatrate == Some([n, d]) && e.free.None? && e.rent == Some([a]) && e.buy == Some([a])
    ensures var r := BuildRegionProviders("KR", Some(e));
      r.found && |r.primaryProviders| == 2 && !r.showPaid && |r.paidProviders.rent| == 1
      && Keys(r.primaryProviders) == ["netflix", "disney"]
  {
    NetflixRecord(n);
    DisneyRecord(d);
    AppleRecord(a);
    var v, w := ViewFor(Whitelist[0], n, e.link), ViewFor(Whitelist[1], d, e.link);
    ToViewsTwo(n, d, e.link, 0, 1);
    ToViewsNone(e.link);
    ToViewsOne(a, e.link, 6);
    MergeWithEmpty([v, w]);
    PrimaryOf("KR", e);
    CatalogKeys();
    KeysPair(v, w, "netflix", "disney");
  }

  /** Case 2: only rent (Netflix, Apple TV Plus) and buy (Apple TV Plus).
      The primary tier is empty, so the paid tier is shown, in catalog
      order. */
  lemma Case2(e: CountryProviders, n: TmdbProvider, a: TmdbProvider)
    requires n.providerName == "Netflix" && a.providerName == "Apple TV Plus"
    requires e.flatrate.None? && e.free.None? && e.rent == Some([n, a]) && e.buy == Some([a])
    ensures var r := BuildRegionProviders("KR", Some(e));
      r.primaryProviders == [] && r.showPaid
      && Keys(r.paidProviders.rent) == ["netflix", "appletvplus"]
      && Keys(r.paidProviders.buy) == ["appletvplus"]
  {
    NetflixRecord(n);
    AppleRecord(a);
    var v, w := ViewFor(Whitelist[0], n, e.link), ViewFor(Whitelist[6], a, e.link);
    ToViewsNone(e.link);
    ToViewsTwo(n, a, e.link, 0, 6);
    ToViewsOne(a, e.link, 6);
    MergeWithEmpty([]);
    PrimaryOf("KR", e);
    CatalogKeys();
    KeysPair(v, w, "netflix", "appletvplus");
    KeysSingle(w, "appletvplus");
  }

  /** The primary tier of a present record merges its flatrate and free
      views. */
  lemma PrimaryOf(country: string, e: CountryProviders)
    ensures BuildRegionProviders(country, Some(e)).primaryProviders
            == MergePrimary(ToViews(e.flatrate, e.link), ToViews(e.free, e.link))
  {
  }

  lemma KeysPair(v: ProviderView, w: ProviderView, x: string, y: string)
    requires v.key == x && w.key == y
    ensures Keys([v, w]) == [x, y]
  {
  }

  lemma KeysSingle(v: ProviderView, x: string)
    requires v.key == x
    ensures Keys([v]) == [x]
  {
  }

  /** Case 3: no Korean record, a US record with Netflix on flatrate. Korea
      is reported missing with its message, and the US fallback has one
      primary provider. */
  lemma Case3(results: Regions, us: CountryProviders, n: TmdbProvider)
    requires "KR" !in results && "US" in results && results["US"] == us
    requires n.providerName == "Netflix" && us.flatrate == Some([n]) && us.free.None?
    ensures var r := ProvidersForKorea(results);
      !r.kr.found && r.kr.message.Some?
      && r.fallback.Some? && r.fallback.value.found && |r.fallback.value.primaryProviders| == 1
  {
    NetflixRecord(n);
    ToViewsOne(n, us.link, 0);
    ToViewsNone(us.link);
    MergeWithEmpty(ToViews(us.flatrate, us.link));
  }
}

=== FILE: provider_config.dfy ===
/** The curated provider catalog (KR-focused whitelist), the name
    normaliser, the first-match-wins matcher and the stable catalog sort. */
module ProviderConfig {
  import opened Options
  import opened Text
  import opened Seqs
  import opened Types
  import opened StableSort

  /** A catalog entry: canonical key, display name, sort order, and the
      upstream ids and human-readable name aliases it matches. An empty
      `matchIds` stands for the optional field being absent. */
  datatype Config = Config(key: string, name: string, order: int, matchIds: seq<int>, matchNames: seq<string>)

  /** The whitelist, in declared order (which is also the match order). */
  const Whitelist: seq<Config> := [
    Config("netflix", "Netflix", 0, [], ["netflix"]),
    Config("disney", "Disney+", 1, [], ["disneyplus", "disney plus", "disney+"]),
    Config("tving", "TVING", 2, [], ["tving"]),
    Config("coupangplay", "Coupang Play", 3, [], ["coupangplay", "coupang play"]),
    Config("wavve", "Wavve", 4, [], ["wavve"]),
    Config("watcha", "Watcha", 5, [], ["watcha", "watcha play"]),
    Config("appletvplus", "Apple TV+", 6, [], ["appletvplus", "apple tv plus", "apple tv+", "apple tv"])
  ]

  /** The sort order of a key the catalog does not know. */
  const UnknownOrder: int := 999

  predicate IsCatalogKey(key: string) {
    exists i :: 0 <= i < |Whitelist| && Whitelist[i].key == key
  }

  /** Keys are unique and each entry's order is its position, so the orders
      are the distinct values 0..6; no entry declares match ids. */
  lemma WhitelistWellFormed()
    ensures |Whitelist| == 7
    ensures forall i, j :: 0 <= i < j < |Whitelist| ==> Whitelist[i].key != Whitelist[j].key
    ensures forall i :: 0 <= i < |Whitelist| ==> Whitelist[i].order == i && Whitelist[i].matchIds == []
    ensures forall i :: 0 <= i < |Whitelist| ==> Whitelist[i].order < UnknownOrder
  {
  }

  // ---------------------------------------------------------------------
  // Name normalisation

  /** Every `+` becomes the literal `plus`. */
  function ReplacePlus(s: string): string {
    if s == [] then []
    else (if s[0] == '+' then "plus" else [s[0]]) + ReplacePlus(s[1..])
  }

  /** After the replacement no `+` is left, and a string without `+` is
      left as it was. */
  lemma {:induction false} ReplacePlusSound(s: string)
    ensures '+' !in ReplacePlus(s)
    ensures '+' !in s ==> ReplacePlus(s) == s
  {
    if s != [] {
      ReplacePlusSound(s[1..]);
    }
  }

  /** Lower-case, trim, `+` to `plus`, then drop everything outside
      `[a-z0-9]`. */
  function NormalizeName(s: string): (r: string)
    ensures AllLowerAlnum(r)
  {
    FilterSound(ReplacePlus(Trim(Lower(s))), IsLowerAlnum);
    Filter(ReplacePlus(Trim(Lower(s))), IsLowerAlnum)
  }

  lemma {:induction false} ReplacePlusAppend(a: string, b: string)
    ensures ReplacePlus(a + b) == ReplacePlus(a) + ReplacePlus(b)
  {
    if a != [] {
      assert (a + b)[1..] == a[1..] + b;
      ReplacePlusAppend(a[1..], b);
    } else {
      assert a + b == b;
    }
  }

  /** Lower-case, `+` to `plus`, keep `[a-z0-9]`: the normaliser without
      its trim step. */
  function Squash(t: string): string {
    Filter(ReplacePlus(Lower(t)), IsLowerAlnum)
  }

  lemma SquashAppend(a: string, b: string)
    ensures Squash(a + b) == Squash(a) + Squash(b)
  {
    LowerAppend(a, b);
    ReplacePlusAppend(Lower(a), Lower(b));
    FilterAppend(ReplacePlus(Lower(a)), ReplacePlus(Lower(b)), IsLowerAlnum);
  }

  lemma SquashSpaces(u: string)
    requires AllSpace(u)
    ensures Squash(u) == []
  {
    assert '+' !in Lower(u);
    ReplacePlusSound(Lower(u));
    FilterNonePass(Lower(u), IsLowerAlnum);
  }

  /** Squashing an already lower-cased string skips the lower-casing. */
  lemma SquashLowered(t: string)
    requires Lower(t) == t
    ensures Squash(t) == Filter(ReplacePlus(t), IsLowerAlnum)
  {
  }

  lemma SquashSandwich(a: string, b: string, c: string)
    requires AllSpace(a) && AllSpace(c)
    ensures Squash(a + b + c) == Squash(b)
  {
    SquashAppend(a + b, c);
    SquashAppend(a, b);
    SquashSpaces(a);
    SquashSpaces(c);
  }

  /** Trimming a lower-cased string does not change what it squashes to. */
  lemma SquashTrim(t: string)
    requires Lower(t) == t
    ensures Lower(Trim(t)) == Trim(t)
    ensures Squash(Trim(t)) == Squash(t)
  {
    var i, j :| 0 <= i <= j <= |t| && Trim(t) == t[i..j] && AllSpace(t[..i]) && AllSpace(t[j..]);
    LowerSlice(t, i, j);
    ThreeParts(t, i, j);
    SquashSandwich(t[..i], t[i..j], t[j..]);
  }

  lemma LowerSlice(t: string, i: nat, j: nat)
    requires i <= j <= |t| && Lower(t) == t
    ensures Lower(t[i..j]) == t[i..j]
  {
    forall k | 0 <= k < j - i
      ensures Lower(t[i..j])[k] == t[i..j][k]
    {
      assert Lower(t)[i + k] == LowerChar(t[i + k]);
    }
  }

  lemma ThreeParts(t: string, i: nat, j: nat)
    requires i <= j <= |t|
    ensures t == t[..i] + t[i..j] + t[j..]
  {
  }

  /** The trim step is redundant: stripping removes the spaces anyway. */
  lemma NormalizeIsSquash(s: string)
    ensures NormalizeName(s) == Squash(s)
  {
    var t := Lower(s);
    assert Lower(t) == t;
    SquashTrim(t);
    SquashLowered(Trim(t));
    SquashLowered(t);
  }

  /** Normalisation distributes over concatenation. */
  lemma NormalizeAppend(a: string, b: string)
    ensures NormalizeName(a + b) == NormalizeName(a) + NormalizeName(b)
  {
    NormalizeIsSquash(a + b);
    NormalizeIsSquash(a);
    NormalizeIsSquash(b);
    SquashAppend(a, b);
  }

  /** A name that is lower-case alphanumeric once lower-cased normalises to
      its lower-case form. */
  lemma NormalizeClean(s: string)
    requires AllLowerAlnum(Lower(s))
    ensures NormalizeName(s) == Lower(s)
  {
    NormalizeIsSquash(s);
    assert '+' !in Lower(s);
    ReplacePlusSound(Lower(s));
    FilterAllPass(Lower(s), IsLowerAlnum);
  }

  /** Normalising a normalised name changes nothing. */
  lemma NormalizeIdempotent(s: string)
    ensures NormalizeName(NormalizeName(s)) == NormalizeName(s)
  {
    var t := NormalizeName(s);
    assert Lower(t) == t;
    NormalizeClean(t);
  }

  // ---------------------------------------------------------------------
  // Matching

  /** Some alias of `c`, once normalised, equals the normalised name `n`. */
  predicate NameMatches(c: Config, n: string) {
    exists k :: 0 <= k < |c.matchNames| && NormalizeName(c.matchNames[k]) == n
  }

  /** The inner alias loop: is any of `names`, normalised, equal to `n`? */
  function AnyAliasMatches(names: seq<string>, n: string): (b: bool)
    ensures b <==> exists k :: 0 <= k < |names| && NormalizeName(names[k]) == n
  {
    Any(names, x => NormalizeName(x) == n)
  }

  /** Index of the first entry of `ps` that declares match id `id`. */
  function FirstById(ps: seq<Config>, id: int): (r: Option<nat>)
    ensures r.None? <==> forall i :: 0 <= i < |ps| ==> id !in ps[i].matchIds
    ensures r.Some? ==> r.value < |ps| && id in ps[r.value].matchIds
    ensures r.Some? ==> forall j :: 0 <= j < r.value ==> id !in ps[j].matchIds
  {
    if ps == [] then None
    else if id in ps[0].matchIds then Some(0)
    else match FirstById(ps[1..], id)
      case None => None
      case Some(i) => Some(i + 1)
  }

  /** Index of the first entry of `ps` with an alias matching `n`. */
  function FirstByName(ps: seq<Config>, n: string): (r: Option<nat>)
    ensures r.None? <==> forall i :: 0 <= i < |ps| ==> !NameMatches(ps[i], n)
    ensures r.Some? ==> r.value < |ps| && NameMatches(ps[r.value], n)
    ensures r.Some? ==> forall j :: 0 <= j < r.value ==> !NameMatches(ps[j], n)
  {
    FirstIndex(ps, (c: Config) => AnyAliasMatches(c.matchNames, n))
  }

  /** The entry of catalog `ps` for an upstream provider: ids are tried
      first, then the normalised name, each in declared order; the first
      hit wins. */
  function MatchIn(ps: seq<Config>, id: Option<int>, name: string): (r: Option<Config>)
    ensures id.Some? && FirstById(ps, id.value).Some? ==> r == Some(ps[FirstById(ps, id.value).value])
    ensures (id.None? || FirstById(ps, id.value).None?) ==>
              (r.None? <==> forall i :: 0 <= i < |ps| ==> !NameMatches(ps[i], NormalizeName(name)))
    ensures (id.None? || FirstById(ps, id.value).None?) && r.Some? ==>
              exists i :: 0 <= i < |ps| && r.value == ps[i] && NameMatches(ps[i], NormalizeName(name))
                && forall j :: 0 <= j < i ==> !NameMatches(ps[j], NormalizeName(name))
  {
    var byId := if id.Some? then FirstById(ps, id.value) else None;
    if byId.Some? then Some(ps[byId.value])
    else match FirstByName(ps, NormalizeName(name))
      case None => None
      case Some(i) => Some(ps[i])
  }

  /** `matchProvider` over the whitelist. Because no entry declares ids, the
      result is the first entry, in declared order, with an alias whose
      normalised form equals the normalised name; null when there is none. */
  function MatchProvider(id: Option<int>, name: string): (r: Option<Config>)
    ensures r.None? <==> forall i :: 0 <= i < |Whitelist| ==> !NameMatches(Whitelist[i], NormalizeName(name))
    ensures r.Some? ==> exists i :: 0 <= i < |Whitelist| && r.value == Whitelist[i]
                          && NameMatches(Whitelist[i], NormalizeName(name))
                          && forall j :: 0 <= j < i ==> !NameMatches(Whitelist[j], NormalizeName(name))
  {
    WhitelistWellFormed();
    MatchIn(Whitelist, id, name)
  }

  /** No entry declares ids, so the id never decides the match. */
  lemma {:induction false} IdNeverMatches(id: Option<int>, name: string)
    ensures MatchProvider(id, name) == MatchProvider(None, name)
  {
    if id.Some? {
      assert forall i :: 0 <= i < |Whitelist| ==> id.value !in Whitelist[i].matchIds;
    }
  }

  // ---------------------------------------------------------------------
  // Sorting by catalog order

  /** The catalog entry with `key` (the `byKey` map; a later entry would
      overwrite an earlier one, which never happens with unique keys). */
  function ByKey(ps: seq<Config>, key: string): (r: Option<Config>)
    ensures r.Some? ==> r.value in ps && r.value.key == key
    ensures r.None? <==> forall i :: 0 <= i < |ps| ==> ps[i].key != key
  {
    if ps == [] then None
    else if ps[|ps| - 1].key == key then Some(ps[|ps| - 1])
    else ByKey(ps[..|ps| - 1], key)
  }

  /** With unique keys, looking an entry's key up finds that entry. */
  lemma ByKeyWhitelist(i: nat)
    requires i < |Whitelist|
    ensures ByKey(Whitelist, Whitelist[i].key) == Some(Whitelist[i])
  {
    WhitelistWellFormed();
    var r := ByKey(Whitelist, Whitelist[i].key);
    var j :| 0 <= j < |Whitelist| && Whitelist[j] == r.value;
    assert Whitelist[j].key == Whitelist[i].key;
  }

  /** The sort rank of a key: its catalog order, or 999 when unknown. */
  function OrderOf(key: string): (o: int)
    ensures IsCatalogKey(key) ==> 0 <= o < |Whitelist|
    ensures !IsCatalogKey(key) ==> o == UnknownOrder
  {
    match ByKey(Whitelist, key)
    case Some(c) => c.order
    case None => UnknownOrder
  }

  /** The sort rank of an entry's key is its position in the catalog. */
  lemma OrderOfEntry(i: nat)
    requires i < |Whitelist|
    ensures OrderOf(Whitelist[i].key) == i
  {
    ByKeyWhitelist(i);
    WhitelistWellFormed();
  }

  predicate SortedByOrder(s: seq<ProviderView>) {
    SortedBy(s, OrderOf)
  }

  /** `sortProviders`: a stable sort of a copy by catalog order, where
      unknown keys rank 999 and so come after every catalog key. */
  function SortProviders(s: seq<ProviderView>): (r: seq<ProviderView>)
    ensures multiset(r) == multiset(s)
    ensures |r| == |s| && KeySet(r) == KeySet(s)
    ensures SortedByOrder(r)
    ensures DistinctKeys(s) ==> DistinctKeys(r)
    ensures forall k :: WithRank(r, OrderOf, k) == WithRank(s, OrderOf, k)
  {
    SortBy(s, OrderOf)
  }

  /** Sorting is idempotent: a sorted list is its own sort. */
  lemma SortProvidersIdempotent(s: seq<ProviderView>)
    ensures SortProviders(SortProviders(s)) == SortProviders(s)
  {
    SortBySorted(SortProviders(s), OrderOf);
  }

  /** In a list sorted by catalog order, no unknown key comes before a
      catalog key. */
  lemma CatalogKeysFirst(s: seq<ProviderView>)
    requires SortedByOrder(s)
    ensures forall i, j :: 0 <= i < j < |s| && IsCatalogKey(s[j].key) ==> IsCatalogKey(s[i].key)
  {
    forall i, j | 0 <= i < j < |s| && IsCatalogKey(s[j].key)
      ensures IsCatalogKey(s[i].key)
    {
      assert OrderOf(s[i].key) <= OrderOf(s[j].key);
    }
  }
}

=== FILE: provider_transform.dfy ===
/** Region normalisation: raw per-region provider lists become
    deduplicated, catalog-ordered views, merged into a primary tier. */
module ProviderTransform {
  import opened Options
  import opened Seqs
  import opened Types
  import opened StableSort
  import opened ProviderConfig
  import opened Tmdb

  // ---------------------------------------------------------------------
  // dedupByKey

  /** The left-most view of `s` with key `k`. */
  function FirstWithKey(s: seq<ProviderView>, k: string): (r: Option<ProviderView>)
    ensures r.None? <==> k !in KeySet(s)
    ensures r.Some? ==> r.value in s && r.value.key == k
  {
    if s == [] then None
    else if s[0].key == k then Some(s[0])
    else
      KeySetCons(s[0], s[1..]);
      assert s == [s[0]] + s[1..];
      FirstWithKey(s[1..], k)
  }

  /** The position of the left-most view of `s` with key `k`. */
  function KeyIndex(s: seq<ProviderView>, k: string): (i: nat)
    requires k in KeySet(s)
    ensures i < |s| && s[i].key == k
    ensures forall j :: 0 <= j < i ==> s[j].key != k
  {
    KeySetCons(s[0], s[1..]);
    assert s == [s[0]] + s[1..];
    if s[0].key == k then 0 else 1 + KeyIndex(s[1..], k)
  }

  /** The views of `r` come in the order in which their keys first occur
      in `s`. */
  predicate FirstOccurrenceOrder(r: seq<ProviderView>, s: seq<ProviderView>)
    requires KeySet(r) <= KeySet(s)
  {
    forall i, j :: 0 <= i < j < |r| ==> KeyIndex(s, r[i].key) < KeyIndex(s, r[j].key)
  }

  /** The loop of `dedupByKey` with `seen` the keys already in the map:
      every view whose key has not been seen is kept, in order. */
  function DedupFrom(s: seq<ProviderView>, seen: set<string>): (r: seq<ProviderView>)
    ensures DistinctKeys(r)
    ensures KeySet(r) == KeySet(s) - seen
    ensures IsSubseq(r, s)
    ensures forall i :: 0 <= i < |r| ==> FirstWithKey(s, r[i].key) == Some(r[i])
    decreases |s|, 1
  {
    if s == [] then []
    else if s[0].key in seen then
      DedupSkip(s, seen);
      DedupFrom(s[1..], seen)
    else
      DedupKeep(s, seen);
      [s[0]] + DedupFrom(s[1..], seen + {s[0].key})
  }

  /** Recursive case of `DedupFrom` when the head's key was seen. */
  lemma DedupSkip(s: seq<ProviderView>, seen: set<string>)
    requires s != [] && s[0].key in seen
    ensures var u := DedupFrom(s[1..], seen);
      KeySet(u) == KeySet(s) - seen && IsSubseq(u, s)
      && forall i :: 0 <= i < |u| ==> FirstWithKey(s, u[i].key) == Some(u[i])
    decreases |s|, 0
  {
    assert s == [s[0]] + s[1..];
    KeySetCons(s[0], s[1..]);
    var u := DedupFrom(s[1..], seen);
    SubseqCons(u, s[1..], s[0]);
    forall i | 0 <= i < |u| ensures FirstWithKey(s, u[i].key) == Some(u[i]) {
      assert u[i].key in KeySet(u);
    }
  }

  /** Recursive case of `DedupFrom` when the head's key is new. */
  lemma DedupKeep(s: seq<ProviderView>, seen: set<string>)
    requires s != [] && s[0].key !in seen
    ensures var t := [s[0]] + DedupFrom(s[1..], seen + {s[0].key});
      DistinctKeys(t) && KeySet(t) == KeySet(s) - seen && IsSubseq(t, s)
      && forall i :: 0 <= i < |t| ==> FirstWithKey(s, t[i].key) == Some(t[i])
    decreases |s|, 0
  {
    assert s == [s[0]] + s[1..];
    KeySetCons(s[0], s[1..]);
    var u := DedupFrom(s[1..], seen + {s[0].key});
    var t := [s[0]] + u;
    KeySetCons(s[0], u);
    DistinctKeysCons(s[0], u);
    assert t[1..] == u;
    forall i | 0 <= i < |t| ensures FirstWithKey(s, t[i].key) == Some(t[i]) {
      if i > 0 {
        assert t[i] == u[i - 1];
        assert u[i - 1].key in KeySet(u);
      }
    }
  }

  /** `dedupByKey`: the first view of each key, in first-occurrence order. */
  function DedupByKey(s: seq<ProviderView>): (r: seq<ProviderView>)
    ensures DistinctKeys(r)
    ensures KeySet(r) == KeySet(s)
    ensures IsSubseq(r, s)
    ensures forall i :: 0 <= i < |r| ==> FirstWithKey(s, r[i].key) == Some(r[i])
    ensures FirstOccurrenceOrder(r, s)
  {
    DedupFromOrder(s, {});
    DedupFrom(s, {})
  }

  /** Past a head whose key is not `k`, the first position of `k` moves
      back by one. */
  lemma KeyIndexTail(s: seq<ProviderView>, k: string)
    requires k in KeySet(s) && s[0].key != k
    ensures k in KeySet(s[1..]) && KeyIndex(s, k) == 1 + KeyIndex(s[1..], k)
  {
    KeySetCons(s[0], s[1..]);
    assert s == [s[0]] + s[1..];
  }

  /** The loop keeps views in the order their keys first occur. */
  lemma {:induction false} DedupFromOrder(s: seq<ProviderView>, seen: set<string>)
    ensures FirstOccurrenceOrder(DedupFrom(s, seen), s)
    decreases |s|
  {
    if s != [] {
      var seen' := if s[0].key in seen then seen else seen + {s[0].key};
      var u := DedupFrom(s[1..], seen');
      DedupFromOrder(s[1..], seen');
      assert s[0].key !in KeySet(u);
      if s[0].key in seen {
        assert DedupFrom(s, seen) == u;
        OrderShift(u, s);
      } else {
        assert DedupFrom(s, seen) == [s[0]] + u;
        OrderShift(u, s);
        OrderCons(u, s);
      }
    }
  }

  /** An order by first occurrence in the tail of `s` is one in `s`, for
      views whose keys differ from the head's. */
  lemma OrderShift(u: seq<ProviderView>, s: seq<ProviderView>)
    requires s != [] && KeySet(u) <= KeySet(s[1..]) && s[0].key !in KeySet(u)
    requires FirstOccurrenceOrder(u, s[1..])
    ensures KeySet(u) <= KeySet(s) && FirstOccurrenceOrder(u, s)
  {
    KeySetCons(s[0], s[1..]);
    assert s == [s[0]] + s[1..];
    forall k | k in KeySet(u) ensures KeyIndex(s, k) == 1 + KeyIndex(s[1..], k) {
      KeyIndexTail(s, k);
    }
    forall i, j | 0 <= i < j < |u| ensures KeyIndex(s, u[i].key) < KeyIndex(s, u[j].key) {
      assert u[i].key in KeySet(u) && u[j].key in KeySet(u);
    }
  }

  /** Putting the head of `s` in front of a list ordered by first
      occurrence in `s`, none of whose keys is the head's, keeps the order. */
  lemma OrderCons(u: seq<ProviderView>, s: seq<ProviderView>)
    requires s != [] && KeySet(u) <= KeySet(s) && s[0].key !in KeySet(u)
    requires FirstOccurrenceOrder(u, s)
    ensures KeySet([s[0]] + u) <= KeySet(s) && FirstOccurrenceOrder([s[0]] + u, s)
  {
    KeySetCons(s[0], u);
    var r := [s[0]] + u;
    assert r[0] == s[0] && KeyIndex(s, s[0].key) == 0;
    forall i, j | 0 <= i < j < |r| ensures KeyIndex(s, r[i].key) < KeyIndex(s, r[j].key) {
      assert r[j] == u[j - 1] && u[j - 1].key in KeySet(u);
      if i > 0 {
        assert r[i] == u[i - 1];
      }
    }
  }

  /** A list whose keys are already distinct is left unchanged. */
  lemma {:induction false} DedupFromDistinct(s: seq<ProviderView>, seen: set<string>)
    requires DistinctKeys(s) && seen !! KeySet(s)
    ensures DedupFrom(s, seen) == s
  {
    if s != [] {
      assert s == [s[0]] + s[1..];
      KeySetCons(s[0], s[1..]);
      DistinctKeysCons(s[0], s[1..]);
      DedupFromDistinct(s[1..], seen + {s[0].key});
    }
  }

  /** Deduplicating twice is deduplicating once. */
  lemma DedupIdempotent(s: seq<ProviderView>)
    ensures DedupByKey(DedupByKey(s)) == DedupByKey(s)
  {
    DedupFromDistinct(DedupByKey(s), {});
  }

  /** When the keys of `a` are distinct, the first view of a key of `a` in
      `a + b` is its view in `a`; other keys are looked up in `b`. */
  lemma {:induction false} FirstWithKeyAppend(a: seq<ProviderView>, b: seq<ProviderView>, k: string)
    ensures k in KeySet(a) ==> FirstWithKey(a + b, k) == FirstWithKey(a, k)
    ensures k !in KeySet(a) ==> FirstWithKey(a + b, k) == FirstWithKey(b, k)
  {
    if a != [] {
      assert (a + b)[1..] == a[1..] + b;
      assert a == [a[0]] + a[1..];
      KeySetCons(a[0], a[1..]);
      FirstWithKeyAppend(a[1..], b, k);
    } else {
      assert a + b == b;
    }
  }

  // ---------------------------------------------------------------------
  // toViews

  /** The catalog entry a raw record matches (`matchProvider` with its id
      and name). */
  function MatchOf(p: TmdbProvider): Option<Config> {
    MatchProvider(Some(p.providerId), p.providerName)
  }

  /** A matcher only ever answers with whitelist entries. */
  ghost predicate CatalogMatcher(matcher: TmdbProvider -> Option<Config>) {
    forall p :: matcher(p).Some? ==> matcher(p).value in Whitelist
  }

  lemma MatchOfIsCatalogMatcher()
    ensures CatalogMatcher(MatchOf)
  {
    forall p | MatchOf(p).Some? ensures MatchOf(p).value in Whitelist {
      var i :| 0 <= i < |Whitelist| && MatchOf(p).value == Whitelist[i];
    }
  }

  /** Does raw record `p` match the entry with key `k`? */
  predicate MatchesKey(matcher: TmdbProvider -> Option<Config>, p: TmdbProvider, k: string) {
    matcher(p).Some? && matcher(p).value.key == k
  }

  /** The view built for a record matched to entry `c`. */
  function ViewFor(c: Config, p: TmdbProvider, link: Option<string>): ProviderView {
    ProviderView(c.key, c.name, LogoUrl(p.logoPath, DefaultLogoSize), link)
  }

  /** A view the way `toViews` builds them: a catalog key, the catalog's
      display name, and the region's link. */
  predicate CatalogView(v: ProviderView, link: Option<string>) {
    IsCatalogKey(v.key) && ByKey(Whitelist, v.key).Some?
    && v.name == ByKey(Whitelist, v.key).value.name && v.link == link
  }

  lemma EntryViewIsCatalogView(c: Config, p: TmdbProvider, link: Option<string>)
    requires c in Whitelist
    ensures CatalogView(ViewFor(c, p, link), link)
  {
    var i :| 0 <= i < |Whitelist| && c == Whitelist[i];
    ByKeyWhitelist(i);
  }

  /** The views of the matched records, in order, before deduplication;
      unmatched records are dropped. */
  function MatchedViews(ps: seq<TmdbProvider>, link: Option<string>, matcher: TmdbProvider -> Option<Config>): (r: seq<ProviderView>)
    requires CatalogMatcher(matcher)
    ensures |r| <= |ps|
    ensures forall i :: 0 <= i < |r| ==> CatalogView(r[i], link)
  {
    if ps == [] then []
    else match matcher(ps[0])
      case None => MatchedViews(ps[1..], link, matcher)
      case Some(c) =>
        EntryViewIsCatalogView(c, ps[0], link);
        [ViewFor(c, ps[0], link)] + MatchedViews(ps[1..], link, matcher)
  }

  /** The first raw record matching the entry with key `k`. */
  function FirstRaw(ps: seq<TmdbProvider>, k: string, matcher: TmdbProvider -> Option<Config>): (r: Option<TmdbProvider>)
    ensures r.None? <==> forall i :: 0 <= i < |ps| ==> !MatchesKey(matcher, ps[i], k)
    ensures r.Some? ==> r.value in ps && MatchesKey(matcher, r.value, k)
  {
    if ps == [] then None
    else if MatchesKey(matcher, ps[0], k) then Some(ps[0])
    else
      var r := FirstRaw(ps[1..], k, matcher);
      assert forall i :: 1 <= i < |ps| ==> ps[i] == ps[1..][i - 1];
      r
  }

  /** The first matched view of a key is the view of the first raw record
      matching that key. */
  lemma {:induction false} FirstMatchedView(ps: seq<TmdbProvider>, link: Option<string>, matcher: TmdbProvider -> Option<Config>, k: string)
    requires CatalogMatcher(matcher)
    ensures FirstWithKey(MatchedViews(ps, link, matcher), k) ==
              match FirstRaw(ps, k, matcher)
              case None => None
              case Some(p) => Some(ViewFor(matcher(p).value, p, link))
  {
    if ps != [] {
      FirstMatchedView(ps[1..], link, matcher, k);
      if matcher(ps[0]).Some? {
        var v := ViewFor(matcher(ps[0]).value, ps[0], link);
        assert ([v] + MatchedViews(ps[1..], link, matcher))[1..] == MatchedViews(ps[1..], link, matcher);
      }
    }
  }

  /** The loop of `toViews` with `seen` the keys already collected: match,
      skip unmatched records, skip keys already present, build the view. */
  function CollectViews(ps: seq<TmdbProvider>, link: Option<string>, matcher: TmdbProvider -> Option<Config>, seen: set<string>): seq<ProviderView> {
    if ps == [] then []
    else match matcher(ps[0])
      case None => CollectViews(ps[1..], link, matcher, seen)
      case Some(c) =>
        if c.key in seen then CollectViews(ps[1..], link, matcher, seen)
        else [ViewFor(c, ps[0], link)] + CollectViews(ps[1..], link, matcher, seen + {c.key})
  }

  /** The loop is deduplication of the matched views. */
  lemma {:induction false} CollectIsDedup(ps: seq<TmdbProvider>, link: Option<string>, matcher: TmdbProvider -> Option<Config>, seen: set<string>)
    requires CatalogMatcher(matcher)
    ensures CollectViews(ps, link, matcher, seen) == DedupFrom(MatchedViews(ps, link, matcher), seen)
  {
    if ps != [] {
      var m := MatchedViews(ps, link, matcher);
      match matcher(ps[0])
      case None =>
        CollectIsDedup(ps[1..], link, matcher, seen);
      case Some(c) =>
        var v := ViewFor(c, ps[0], link);
        assert m == [v] + MatchedViews(ps[1..], link, matcher);
        assert m[1..] == MatchedViews(ps[1..], link, matcher);
        if c.key in seen {
          CollectIsDedup(ps[1..], link, matcher, seen);
        } else {
          CollectIsDedup(ps[1..], link, matcher, seen + {c.key});
        }
    }
  }

  /** `toViews`: one view per matched catalog entry, built from the first
      record that matched it, sorted by catalog order. */
  function ToViews(providers: Option<seq<TmdbProvider>>, link: Option<string>): (r: seq<ProviderView>)
    ensures DistinctKeys(r)
    ensures SortedByOrder(r)
    ensures forall k :: k in KeySet(r) <==> FirstRaw(Items(providers), k, MatchOf).Some?
    ensures forall i :: 0 <= i < |r| ==> CatalogView(r[i], link)
    ensures forall i :: 0 <= i < |r| ==>
              FirstRaw(Items(providers), r[i].key, MatchOf).Some?
              && r[i] == ViewFor(MatchOf(FirstRaw(Items(providers), r[i].key, MatchOf).value).value,
                                 FirstRaw(Items(providers), r[i].key, MatchOf).value, link)
  {
    var ps := Items(providers);
    MatchOfIsCatalogMatcher();
    CollectIsDedup(ps, link, MatchOf, {});
    var r := SortProviders(CollectViews(ps, link, MatchOf, {}));
    ToViewsFacts(ps, link, MatchOf, r);
    r
  }

  lemma ToViewsFacts(ps: seq<TmdbProvider>, link: Option<string>, matcher: TmdbProvider -> Option<Config>, r: seq<ProviderView>)
    requires CatalogMatcher(matcher)
    requires r == SortProviders(DedupByKey(MatchedViews(ps, link, matcher)))
    ensures forall k :: k in KeySet(r) <==> FirstRaw(ps, k, matcher).Some?
    ensures forall i :: 0 <= i < |r| ==> CatalogView(r[i], link)
    ensures forall i :: 0 <= i < |r| ==>
              FirstRaw(ps, r[i].key, matcher).Some?
              && r[i] == ViewFor(matcher(FirstRaw(ps, r[i].key, matcher).value).value,
                                 FirstRaw(ps, r[i].key, matcher).value, link)
  {
    forall k ensures k in KeySet(r) <==> FirstRaw(ps, k, matcher).Some? {
      FirstMatchedView(ps, link, matcher, k);
    }
    forall i | 0 <= i < |r|
      ensures CatalogView(r[i], link)
      ensures FirstRaw(ps, r[i].key, matcher).Some?
      ensures r[i] == ViewFor(matcher(FirstRaw(ps, r[i].key, matcher).value).value,
                              FirstRaw(ps, r[i].key, matcher).value, link)
    {
      ToViewsElement(ps, link, matcher, r[i]);
    }
  }

  /** Every view left after dedup and sort is a matched view, and the
      first one of its key. */
  lemma ToViewsElement(ps: seq<TmdbProvider>, link: Option<string>, matcher: TmdbProvider -> Option<Config>, v: ProviderView)
    requires CatalogMatcher(matcher)
    requires v in SortProviders(DedupByKey(MatchedViews(ps, link, matcher)))
    ensures CatalogView(v, link)
    ensures FirstRaw(ps, v.key, matcher).Some?
    ensures v == ViewFor(matcher(FirstRaw(ps, v.key, matcher).value).value, FirstRaw(ps, v.key, matcher).value, link)
  {
    var m := MatchedViews(ps, link, matcher);
    var d := DedupByKey(m);
    assert v in multiset(SortProviders(d));
    assert v in multiset(d);
    var j :| 0 <= j < |d| && d[j] == v;
    FirstMatchedView(ps, link, matcher, v.key);
    var l :| 0 <= l < |m| && m[l] == v;
  }

  // ---------------------------------------------------------------------
  // buildRegionProviders

  /** The message for a missing KR record: "no provider data for Korea
      (KR)". */
  const KrMissingMessage: string := "한국(KR) 제공처 데이터가 없습니다."

  /** The primary tier: flatrate and free views merged, one per key, the
      flatrate view winning, sorted by catalog order. For each key the view
      kept is the first flatrate view with it, or else the first free one. */
  function MergePrimary(flatrate: seq<ProviderView>, free: seq<ProviderView>): (r: seq<ProviderView>)
    requires DistinctKeys(flatrate)
    ensures DistinctKeys(r) && SortedByOrder(r)
    ensures KeySet(r) == KeySet(flatrate) + KeySet(free)
    ensures forall i :: 0 <= i < |r| && r[i].key in KeySet(flatrate) ==> r[i] in flatrate
    ensures forall i :: 0 <= i < |r| && r[i].key !in KeySet(flatrate) ==> r[i] in free
    ensures forall i :: 0 <= i < |r| && r[i].key in KeySet(flatrate) ==>
              FirstWithKey(flatrate, r[i].key) == Some(r[i])
    ensures forall i :: 0 <= i < |r| && r[i].key !in KeySet(flatrate) ==>
              FirstWithKey(free, r[i].key) == Some(r[i])
  {
    var d := DedupByKey(flatrate + free);
    var r := SortProviders(d);
    MergeFacts(flatrate, free, d, r);
    r
  }

  lemma MergeFacts(flatrate: seq<ProviderView>, free: seq<ProviderView>, d: seq<ProviderView>, r: seq<ProviderView>)
    requires d == DedupByKey(flatrate + free) && multiset(r) == multiset(d) && KeySet(r) == KeySet(d)
    ensures KeySet(r) == KeySet(flatrate) + KeySet(free)
    ensures forall i :: 0 <= i < |r| && r[i].key in KeySet(flatrate) ==> r[i] in flatrate
    ensures forall i :: 0 <= i < |r| && r[i].key !in KeySet(flatrate) ==> r[i] in free
    ensures forall i :: 0 <= i < |r| && r[i].key in KeySet(flatrate) ==>
              FirstWithKey(flatrate, r[i].key) == Some(r[i])
    ensures forall i :: 0 <= i < |r| && r[i].key !in KeySet(flatrate) ==>
              FirstWithKey(free, r[i].key) == Some(r[i])
  {
    KeySetAppend(flatrate, free);
    forall i | 0 <= i < |r|
      ensures r[i].key in KeySet(flatrate) ==> r[i] in flatrate
      ensures r[i].key !in KeySet(flatrate) ==> r[i] in free
      ensures r[i].key in KeySet(flatrate) ==> FirstWithKey(flatrate, r[i].key) == Some(r[i])
      ensures r[i].key !in KeySet(flatrate) ==> FirstWithKey(free, r[i].key) == Some(r[i])
    {
      assert r[i] in multiset(d);
      var j :| 0 <= j < |d| && d[j] == r[i];
      FirstWithKeyAppend(flatrate, free, d[j].key);
    }
  }

  lemma KeySetAppend(a: seq<ProviderView>, b: seq<ProviderView>)
    ensures KeySet(a + b) == KeySet(a) + KeySet(b)
  {
    var ab := a + b;
    forall k | k in KeySet(a + b) ensures k in KeySet(a) + KeySet(b) {
      var i :| 0 <= i < |ab| && ab[i].key == k;
      if i >= |a| {
        assert ab[i] == b[i - |a|];
      }
    }
    forall k | k in KeySet(a) + KeySet(b) ensures k in KeySet(a + b) {
      if k in KeySet(a) {
        var i :| 0 <= i < |a| && a[i].key == k;
        assert ab[i] == a[i];
      } else {
        var i :| 0 <= i < |b| && b[i].key == k;
        assert ab[|a| + i] == b[i];
      }
    }
  }

  /** `buildRegionProviders(country, entry)`. */
  function BuildRegionProviders(country: string, entry: Option<CountryProviders>): (r: RegionProviders)
    ensures r.country == country
    ensures entry.None? ==>
              !r.found && r.primaryProviders == [] && r.paidProviders == PaidProviders([], [])
              && !r.showPaid && (r.message.Some? <==> country == "KR")
    ensures entry.Some? ==> r.found && r.message.None? && (r.showPaid <==> |r.primaryProviders| == 0)
    ensures entry.Some? ==>
              r.primaryProviders == MergePrimary(ToViews(entry.value.flatrate, entry.value.link),
                                                 ToViews(entry.value.free, entry.value.link))
    ensures entry.Some? ==>
              r.paidProviders.rent == ToViews(entry.value.rent, entry.value.link)
              && r.paidProviders.buy == ToViews(entry.value.buy, entry.value.link)
  {
    match entry
    case None =>
      RegionProviders(country, false, if country == "KR" then Some(KrMissingMessage) else None,
                      [], PaidProviders([], []), false)
    case Some(e) =>
      var flatrate := ToViews(e.flatrate, e.link);
      var free := ToViews(e.free, e.link);
      var rent := ToViews(e.rent, e.link);
      var buy := ToViews(e.buy, e.link);
      var primary := MergePrimary(flatrate, free);
      RegionProviders(country, true, None, primary, PaidProviders(rent, buy), |primary| == 0)
  }

  /** The primary tier holds exactly the catalog entries some flatrate or
      free record matches. */
  lemma PrimaryKeys(country: string, e: CountryProviders, k: string)
    ensures k in KeySet(BuildRegionProviders(country, Some(e)).primaryProviders)
            <==> FirstRaw(Items(e.flatrate), k, MatchOf).Some? || FirstRaw(Items(e.free), k, MatchOf).Some?
  {
  }

  /** No key has a first matching record exactly when no record matches. */
  lemma NoRawMatch(ps: seq<TmdbProvider>, matcher: TmdbProvider -> Option<Config>)
    ensures (forall k :: FirstRaw(ps, k, matcher).None?) <==> (forall p :: p in ps ==> matcher(p).None?)
  {
    if exists p :: p in ps && matcher(p).Some? {
      var p :| p in ps && matcher(p).Some?;
      var j :| 0 <= j < |ps| && ps[j] == p;
      assert MatchesKey(matcher, ps[j], matcher(p).value.key);
      assert FirstRaw(ps, matcher(p).value.key, matcher).Some?;
    } else {
      forall k ensures FirstRaw(ps, k, matcher).None? {
        assert forall i :: 0 <= i < |ps| ==> ps[i] in ps;
      }
    }
  }

  /** The paid tier is shown exactly when no flatrate or free record
      matches a catalog entry. */
  lemma ShowPaidIffNoPrimaryMatch(country: string, e: CountryProviders)
    ensures BuildRegionProviders(country, Some(e)).showPaid
            <==> forall p :: p in Items(e.flatrate) + Items(e.free) ==> MatchOf(p).None?
  {
    var primary := BuildRegionProviders(country, Some(e)).primaryProviders;
    var a, b := Items(e.flatrate), Items(e.free);
    forall k ensures k in KeySet(primary) <==> FirstRaw(a, k, MatchOf).Some? || FirstRaw(b, k, MatchOf).Some? {
      PrimaryKeys(country, e, k);
    }
    if |primary| > 0 {
      assert primary[0].key in KeySet(primary);
    }
    NoRawMatch(a, MatchOf);
    NoRawMatch(b, MatchOf);
  }
}

=== FILE: providers.dfy ===
/** The region-selection rule applied to a fetched watch-provider result:
    Korea is always reported, and the United States only stands in when
    Korea has no record at all. */
module Providers {
  import opened Options
  import opened Types
  import opened ProviderTransform

  /** The regions of a fetched result, by country code (`results`). */
  type Regions = map<string, CountryProviders>

  /** `results[code]`: the record of a region, if there is one. */
  function Lookup(results: Regions, code: string): (r: Option<CountryProviders>)
    ensures r.Some? <==> code in results
    ensures r.Some? ==> r.value == results[code]
  {
    if code in results then Some(results[code]) else None
  }

  /** What is reported for a title: Korea, and possibly a US fallback. */
  datatype KoreaProviders = KoreaProviders(kr: RegionProviders, fallback: Option<RegionProviders>)

  /** `getProvidersForKorea` after the fetch. */
  function ProvidersForKorea(results: Regions): (r: KoreaProviders)
    ensures r.kr == BuildRegionProviders("KR", Lookup(results, "KR"))
    ensures r.fallback.Some? <==> "KR" !in results && "US" in results
    ensures r.fallback.Some? ==> r.fallback.value == BuildRegionProviders("US", Some(results["US"]))
  {
    var kr := BuildRegionProviders("KR", Lookup(results, "KR"));
    var fallback := if "KR" !in results && "US" in results
                    then Some(BuildRegionProviders("US", Some(results["US"])))
                    else None;
    KoreaProviders(kr, fallback)
  }

  /** With a fallback, Korea is reported missing with its message and the
      fallback is a found US record. */
  lemma FallbackShape(results: Regions)
    requires ProvidersForKorea(results).fallback.Some?
    ensures var r := ProvidersForKorea(results);
      r.fallback.value.country == "US" && r.fallback.value.found
      && !r.kr.found && r.kr.message == Some(KrMissingMessage)
      && r.kr.primaryProviders == [] && !r.kr.showPaid
  {
  }

  /** A Korean record, even one with no providers at all, rules out the
      fallback; Korea is then reported found. */
  lemma KoreaPresentNoFallback(results: Regions)
    requires "KR" in results
    ensures ProvidersForKorea(results).fallback.None?
    ensures ProvidersForKorea(results).kr.found
  {
  }

  /** Only the KR and US records matter. */
  lemma OnlyKoreaAndUsMatter(a: Regions, b: Regions)
    requires Lookup(a, "KR") == Lookup(b, "KR") && Lookup(a, "US") == Lookup(b, "US")
    ensures ProvidersForKorea(a) == ProvidersForKorea(b)
  {
  }
}

=== FILE: rate_limiter.dfy ===
/** `FixedWindowRateLimiter`: per key, at most `limit` admitted calls in a
    window of `windowMs` milliseconds that opens with the first call after
    the previous window ran out. The clock is an explicit parameter `now`. */
module RateLimiter {

  /** The window of one key: when it opened and how many calls it admitted. */
  datatype WindowState = WindowState(windowStartMs: int, count: int)

  datatype Limiter = Limiter(limit: int, windowMs: int, states: map<string, WindowState>)

  /** The answer to one call: admitted with the calls still left in the
      window, or rejected with the seconds until the window closes. */
  datatype Decision = Admit(remaining: int) | Reject(retryAfterSec: int)

  datatype Outcome = Outcome(limiter: Limiter, decision: Decision)

  /** `Math.ceil(x / 1000)` for an integer `x`. */
  function CeilDiv1000(x: int): (q: int)
    ensures 1000 * (q - 1) < x <= 1000 * q
  {
    -((-x) / 1000)
  }

  /** Does a call at `now` open a new window for `key` (no window yet, or
      the current one has run its length)? */
  predicate OpensWindow(l: Limiter, key: string, now: int) {
    key !in l.states || now - l.states[key].windowStartMs >= l.windowMs
  }

  /** `check(key)` at time `now`. */
  function Check(l: Limiter, key: string, now: int): (r: Outcome)
    ensures r.limiter.limit == l.limit && r.limiter.windowMs == l.windowMs
    ensures key in r.limiter.states
    ensures forall k :: k != key ==> (k in r.limiter.states <==> k in l.states)
                                     && (k in l.states ==> r.limiter.states[k] == l.states[k])
    ensures OpensWindow(l, key, now) ==>
              r.decision == Admit(l.limit - 1) && r.limiter.states[key] == WindowState(now, 1)
    ensures !OpensWindow(l, key, now) && l.states[key].count >= l.limit ==>
              r.limiter == l
              && r.decision == Reject(CeilDiv1000(l.windowMs - (now - l.states[key].windowStartMs)))
    ensures !OpensWindow(l, key, now) && l.states[key].count < l.limit ==>
              r.limiter.states[key] == WindowState(l.states[key].windowStartMs, l.states[key].count + 1)
              && r.decision == Admit(l.limit - r.limiter.states[key].count)
  {
    if OpensWindow(l, key, now) then
      Outcome(l.(states := l.states[key := WindowState(now, 1)]), Admit(l.limit - 1))
    else
      var s := l.states[key];
      if s.count >= l.limit then
        Outcome(l, Reject(CeilDiv1000(l.windowMs - (now - s.windowStartMs))))
      else
        var s' := s.(count := s.count + 1);
        Outcome(l.(states := l.states[key := s']), Admit(l.limit - s'.count))
  }

  /** Every window has admitted at least one and at most `limit` calls, and
      none opened after `now`. */
  predicate Sound(l: Limiter, now: int) {
    forall k :: k in l.states ==>
      1 <= l.states[k].count <= l.limit && l.states[k].windowStartMs <= now
  }

  /** With a limit of at least one and a clock that does not run
      backwards, checks keep the limiter sound and never answer a negative
      `remaining`. */
  lemma CheckKeepsSound(l: Limiter, key: string, now: int, later: int)
    requires l.limit >= 1 && Sound(l, now) && now <= later
    ensures Sound(Check(l, key, now).limiter, later)
    ensures Check(l, key, now).decision.Admit? ==> Check(l, key, now).decision.remaining >= 0
  {
  }

  /** A rejection inside a window that opened no later than `now` asks to
      wait between one second and the window's length in whole seconds. */
  lemma RetryAfterBounds(l: Limiter, key: string, now: int)
    requires key in l.states && l.states[key].windowStartMs <= now
    requires Check(l, key, now).decision.Reject?
    ensures 1 <= Check(l, key, now).decision.retryAfterSec <= CeilDiv1000(l.windowMs)
  {
    var s := l.states[key];
    var x := l.windowMs - (now - s.windowStartMs);
    var q := CeilDiv1000(x);
    var m := CeilDiv1000(l.windowMs);
    assert 0 < x <= l.windowMs;
    assert 1000 * (q - 1) < 1000 * m;
  }

  /** The number of calls admitted when `key` is checked at each of
      `times` in turn. */
  function Admitted(l: Limiter, key: string, times: seq<int>): nat
    decreases |times|
  {
    if times == [] then 0
    else
      var r := Check(l, key, times[0]);
      (if r.decision.Admit? then 1 else 0) + Admitted(r.limiter, key, times[1..])
  }

  /** Inside an open window the calls still admitted are at most what is
      left of the limit. */
  lemma {:induction false} AdmittedInsideWindow(l: Limiter, key: string, times: seq<int>)
    requires key in l.states
    requires forall i :: 0 <= i < |times| ==>
               l.states[key].windowStartMs <= times[i] < l.states[key].windowStartMs + l.windowMs
    ensures Admitted(l, key, times) <= if l.limit > l.states[key].count then l.limit - l.states[key].count else 0
    decreases |times|
  {
    if times != [] {
      var r := Check(l, key, times[0]);
      assert !OpensWindow(l, key, times[0]);
      assert forall i :: 0 <= i < |times[1..]| ==> times[1..][i] == times[i + 1];
      AdmittedInsideWindow(r.limiter, key, times[1..]);
    }
  }

  /** From the call that opens a window, at most `limit` calls are admitted
      before the window runs out. */
  lemma AtMostLimitPerWindow(l: Limiter, key: string, start: int, times: seq<int>)
    requires l.limit >= 1 && OpensWindow(l, key, start)
    requires forall i :: 0 <= i < |times| ==> start <= times[i] < start + l.windowMs
    ensures Admitted(l, key, [start] + times) <= l.limit
  {
    var r := Check(l, key, start);
    assert ([start] + times)[1..] == times;
    AdmittedInsideWindow(r.limiter, key, times);
  }

  /** Checking one key never changes what another key is answered. */
  lemma OtherKeysIndependent(l: Limiter, key: string, other: string, now: int, t: int)
    requires other != key
    ensures Check(Check(l, key, now).limiter, other, t).decision == Check(l, other, t).decision
  {
  }
}

=== FILE: search.dfy ===
/** The row mappings of the search and trending endpoints: upstream result
    rows become `Content` records, rows that cannot be shown are dropped
    (search) or given a placeholder title (trending). Rows arrive already
    sorted by popularity. */
module Search {
  import opened Options
  import opened Text
  import opened Types
  import opened Seqs

  /** One upstream multi-search row. `mediaType` is free text: the search
      also returns people. */
  datatype SearchRow = SearchRow(
    id: int,
    mediaType: string,
    title: Option<string>,
    releaseDate: Option<string>,
    name: Option<string>,
    firstAirDate: Option<string>,
    posterPath: Option<string>,
    overview: Option<string>)

  function MediaTypeName(m: MediaType): string {
    match m
    case Movie => "movie"
    case Tv => "tv"
  }

  /** The media type a row's `media_type` text names, if any. */
  function ParseMediaType(s: string): (r: Option<MediaType>)
    ensures r.Some? ==> MediaTypeName(r.value) == s
    ensures r.None? ==> s != "movie" && s != "tv"
  {
    if s == "movie" then Some(Movie) else if s == "tv" then Some(Tv) else None
  }

  lemma MediaTypeRoundTrip(m: MediaType)
    ensures ParseMediaType(MediaTypeName(m)) == Some(m)
  {
  }

  /** The title a row shows for its media type: `title` for a movie,
      `name` for a series, the empty string when missing. */
  function RowTitle(m: MediaType, title: Option<string>, name: Option<string>): string {
    match m
    case Movie => title.GetOr("")
    case Tv => name.GetOr("")
  }

  /** `toContent(row)`: a row becomes content when it is a movie or a series
      with a non-blank title; the title is kept untrimmed. */
  function ToContent(row: SearchRow): (r: Option<Content>)
    ensures r.Some? <==> (ParseMediaType(row.mediaType).Some?
                         && !AllSpace(RowTitle(ParseMediaType(row.mediaType).value, row.title, row.name)))
    ensures r.Some? ==>
              && MediaTypeName(r.value.mediaType) == row.mediaType
              && r.value.id == row.id
              && r.value.title == RowTitle(r.value.mediaType, row.title, row.name)
              && r.value.posterPath == row.posterPath.GetOr("")
              && r.value.overview == row.overview.GetOr("")
              && r.value.releaseDate == row.releaseDate
              && r.value.firstAirDate == row.firstAirDate
              && r.value.originCountry.None? && r.value.originalLanguage.None?
  {
    match ParseMediaType(row.mediaType)
    case None => None
    case Some(m) =>
      var title := RowTitle(m, row.title, row.name);
      if Trim(title) == "" then None
      else Some(Content(row.id, title, m, row.posterPath.GetOr(""), row.overview.GetOr(""),
                        row.releaseDate, row.firstAirDate, None, None))
  }

  /** The map-then-filter step of `searchMulti`: the accepted rows' content,
      in row order. */
  function SearchMulti(rows: seq<SearchRow>): (r: seq<Content>)
    ensures |r| <= |rows|
    ensures forall c :: c in r <==> exists i :: 0 <= i < |rows| && ToContent(rows[i]) == Some(c)
    ensures forall i :: 0 <= i < |r| ==> !AllSpace(r[i].title)
  {
    var r := FilterMap(rows, ToContent);
    forall c ensures c in r <==> exists i :: 0 <= i < |rows| && ToContent(rows[i]) == Some(c) {
      FilterMapExact(rows, ToContent, c);
    }
    forall i | 0 <= i < |r| ensures !AllSpace(r[i].title) {
      assert r[i] in r;
      var j :| 0 <= j < |rows| && ToContent(rows[j]) == Some(r[i]);
      AcceptedTitleNotBlank(rows[j]);
    }
    r
  }

  lemma AcceptedTitleNotBlank(row: SearchRow)
    requires ToContent(row).Some?
    ensures !AllSpace(ToContent(row).value.title)
  {
  }

  /** Mapping and filtering distribute over concatenation of row lists. */
  lemma SearchMultiAppend(a: seq<SearchRow>, b: seq<SearchRow>)
    ensures SearchMulti(a + b) == SearchMulti(a) + SearchMulti(b)
  {
    FilterMapAppend(a, b, ToContent);
  }

  // ---------------------------------------------------------------------
  // getTrending

  /** One upstream trending row; the requested media type decides which
      fields are read. */
  datatype TrendingRow = TrendingRow(
    id: int,
    posterPath: Option<string>,
    overview: Option<string>,
    title: Option<string>,
    releaseDate: Option<string>,
    name: Option<string>,
    firstAirDate: Option<string>,
    originCountry: Option<seq<string>>,
    originalLanguage: Option<string>)

  /** The placeholder for a missing title ("(no title)"). */
  const Untitled: string := "(제목 없음)"

  lemma UntitledNotBlank()
    ensures !AllSpace(Untitled)
  {
    assert !IsSpace(Untitled[0]);
  }

  /** The row mapping of `getTrending` for media type `m`. */
  function TrendingContent(m: MediaType, row: TrendingRow): (r: Content)
    ensures r.id == row.id && r.mediaType == m
    ensures !AllSpace(r.title)
    ensures !AllSpace(RowTitle(m, row.title, row.name)) ==> r.title == RowTitle(m, row.title, row.name)
    ensures AllSpace(RowTitle(m, row.title, row.name)) ==> r.title == Untitled
    ensures r.posterPath == row.posterPath.GetOr("") && r.overview == row.overview.GetOr("")
    ensures m == Movie ==> r.releaseDate == row.releaseDate && r.firstAirDate.None?
                           && r.originCountry.None? && r.originalLanguage.None?
    ensures m == Tv ==> r.releaseDate.None? && r.firstAirDate == row.firstAirDate
                        && r.originCountry == row.originCountry && r.originalLanguage == row.originalLanguage
  {
    var title := RowTitle(m, row.title, row.name);
    UntitledNotBlank();
    Content(row.id, if Trim(title) != "" then title else Untitled, m,
            row.posterPath.GetOr(""), row.overview.GetOr(""),
            if m == Movie then row.releaseDate else None,
            if m == Tv then row.firstAirDate else None,
            if m == Tv then row.originCountry else None,
            if m == Tv then row.originalLanguage else None)
  }

  /** `Math.max(1, limit ?? 10)`. */
  function TrendingLimit(limit: Option<int>): (n: int)
    ensures n >= 1
    ensures limit.None? ==> n == 10
    ensures limit.Some? ==> n >= limit.value && (n == limit.value || n == 1)
  {
    var l := limit.GetOr(10);
    if l > 1 then l else 1
  }

  /** `getTrending` after the fetch: every row mapped, then the first
      `limit` kept. */
  method GetTrending(m: MediaType, rows: seq<TrendingRow>, limit: Option<int>) returns (r: seq<Content>)
    ensures |r| <= TrendingLimit(limit) && |r| <= |rows|
    ensures |r| == |rows| || |r| == TrendingLimit(limit)
    ensures forall i :: 0 <= i < |r| ==> r[i] == TrendingContent(m, rows[i])
    ensures forall i :: 0 <= i < |r| ==> r[i].mediaType == m
  {
    r := MapTake(rows, row => TrendingContent(m, row), TrendingLimit(limit));
  }
}

=== FILE: seqs.dfy ===
/** Order-preserving selection on sequences: the `Array.prototype.filter`
    of the program, and the subsequence relation it establishes. */
module Seqs {
  import opened Options

  /** The elements of `s` that satisfy `p`, in their original order. */
  function Filter<T>(s: seq<T>, p: T -> bool): seq<T> {
    if s == [] then []
    else if p(s[0]) then [s[0]] + Filter(s[1..], p)
    else Filter(s[1..], p)
  }

  /** Filtering never lengthens, and everything it keeps passes `p`. */
  lemma {:induction false} FilterSound<T>(s: seq<T>, p: T -> bool)
    ensures |Filter(s, p)| <= |s|
    ensures forall i :: 0 <= i < |Filter(s, p)| ==> p(Filter(s, p)[i])
  {
    if s != [] {
      FilterSound(s[1..], p);
    }
  }

  lemma FilterCons<T>(x: T, s: seq<T>, p: T -> bool)
    ensures Filter([x] + s, p) == (if p(x) then [x] else []) + Filter(s, p)
  {
    assert ([x] + s)[1..] == s;
  }

  lemma {:induction false} FilterAppend<T>(a: seq<T>, b: seq<T>, p: T -> bool)
    ensures Filter(a + b, p) == Filter(a, p) + Filter(b, p)
  {
    if a == [] {
      assert a + b == b;
    } else {
      assert (a + b)[1..] == a[1..] + b;
      FilterAppend(a[1..], b, p);
    }
  }

  /** `a` is obtained from `b` by deleting elements: order is preserved. */
  predicate IsSubseq<T(==)>(a: seq<T>, b: seq<T>)
    decreases |b|
  {
    if a == [] then true
    else if b == [] then false
    else if a[0] == b[0] then IsSubseq(a[1..], b[1..])
    else IsSubseq(a, b[1..])
  }

  lemma {:induction false} FilterIsSubseq<T>(s: seq<T>, p: T -> bool)
    ensures IsSubseq(Filter(s, p), s)
    decreases |s|
  {
    if s != [] {
      FilterIsSubseq(s[1..], p);
      if !p(s[0]) {
        SubseqCons(Filter(s[1..], p), s[1..], s[0]);
      }
    }
  }

  /** Adding an element in front of the larger sequence keeps the relation. */
  lemma {:induction false} SubseqCons<T>(a: seq<T>, b: seq<T>, x: T)
    requires IsSubseq(a, b)
    ensures IsSubseq(a, [x] + b)
    decreases |b|, 1
  {
    assert ([x] + b)[1..] == b;
    if a != [] && a[0] == x {
      SubseqDropHead(a, b);
    }
  }

  /** Dropping the first element of the smaller sequence keeps the relation. */
  lemma {:induction false} SubseqDropHead<T>(a: seq<T>, b: seq<T>)
    requires a != [] && IsSubseq(a, b)
    ensures IsSubseq(a[1..], b)
    decreases |b|, 0
  {
    assert [b[0]] + b[1..] == b;
    if a[0] == b[0] {
      SubseqCons(a[1..], b[1..], b[0]);
    } else {
      SubseqDropHead(a, b[1..]);
      SubseqCons(a[1..], b[1..], b[0]);
    }
  }

  /** Filtering twice with the same predicate changes nothing. */
  lemma {:induction false} FilterIdempotent<T>(s: seq<T>, p: T -> bool)
    ensures Filter(Filter(s, p), p) == Filter(s, p)
  {
    if s != [] {
      FilterIdempotent(s[1..], p);
      if p(s[0]) {
        assert ([s[0]] + Filter(s[1..], p))[1..] == Filter(s[1..], p);
      }
    }
  }

  /** Filtering a sequence whose every element passes returns it unchanged. */
  lemma {:induction false} FilterAllPass<T>(s: seq<T>, p: T -> bool)
    requires forall i :: 0 <= i < |s| ==> p(s[i])
    ensures Filter(s, p) == s
  {
    if s != [] {
      FilterAllPass(s[1..], p);
    }
  }

  /** Filtering a sequence none of whose elements passes gives the empty sequence. */
  lemma {:induction false} FilterNonePass<T>(s: seq<T>, p: T -> bool)
    requires forall i :: 0 <= i < |s| ==> !p(s[i])
    ensures Filter(s, p) == []
  {
    if s != [] {
      FilterNonePass(s[1..], p);
    }
  }

  /** Filtering keeps every copy of a passing element and no copy of any
      other. */
  lemma {:induction false} FilterCounts<T>(s: seq<T>, p: T -> bool)
    ensures forall v :: multiset(Filter(s, p))[v] == if p(v) then multiset(s)[v] else 0
  {
    if s != [] {
      FilterCounts(s[1..], p);
      assert s == [s[0]] + s[1..];
    }
  }

  /** A sequence and a predicate's complement split it in two: together
      the two filters hold every element exactly once. */
  lemma {:induction false} FilterPartition<T>(s: seq<T>, p: T -> bool, q: T -> bool)
    requires forall x :: q(x) == !p(x)
    ensures |Filter(s, p)| + |Filter(s, q)| == |s|
    ensures multiset(Filter(s, p)) + multiset(Filter(s, q)) == multiset(s)
  {
    if s != [] {
      FilterPartition(s[1..], p, q);
      assert s == [s[0]] + s[1..];
    }
  }

  /** Does some element of `s` pass `p` (`s.some(p)`)? */
  function Any<T>(s: seq<T>, p: T -> bool): (b: bool)
    ensures b <==> exists k :: 0 <= k < |s| && p(s[k])
  {
    if s == [] then false
    else p(s[0]) || Any(s[1..], p)
  }

  /** The index of the first element of `s` that passes `p`, if any. */
  function FirstIndex<T>(s: seq<T>, p: T -> bool): (r: Option<nat>)
    ensures r.None? <==> forall i :: 0 <= i < |s| ==> !p(s[i])
    ensures r.Some? ==> r.value < |s| && p(s[r.value])
    ensures r.Some? ==> forall j :: 0 <= j < r.value ==> !p(s[j])
  {
    if s == [] then None
    else if p(s[0]) then Some(0)
    else match FirstIndex(s[1..], p)
      case None => None
      case Some(i) => Some(i + 1)
  }

  /** `s.map(f).filter(Boolean)` for a partial `f`: the present results,
      in order. */
  function FilterMap<A, B>(s: seq<A>, f: A -> Option<B>): (r: seq<B>)
    ensures |r| <= |s|
  {
    if s == [] then []
    else match f(s[0])
      case None => FilterMap(s[1..], f)
      case Some(y) => [y] + FilterMap(s[1..], f)
  }

  lemma {:induction false} FilterMapAppend<A, B>(a: seq<A>, b: seq<A>, f: A -> Option<B>)
    ensures FilterMap(a + b, f) == FilterMap(a, f) + FilterMap(b, f)
  {
    if a == [] {
      assert a + b == b;
    } else {
      assert (a + b)[1..] == a[1..] + b;
      FilterMapAppend(a[1..], b, f);
    }
  }

  /** The results are exactly the present images of the elements. */
  lemma {:induction false} FilterMapExact<A, B>(s: seq<A>, f: A -> Option<B>, y: B)
    ensures y in FilterMap(s, f) <==> exists i :: 0 <= i < |s| && f(s[i]) == Some(y)
  {
    if s != [] {
      FilterMapExact(s[1..], f, y);
      if exists i :: 0 <= i < |s| && f(s[i]) == Some(y) {
        var i :| 0 <= i < |s| && f(s[i]) == Some(y);
        if i > 0 {
          assert s[1..][i - 1] == s[i];
        }
      }
      if exists i :: 0 <= i < |s[1..]| && f(s[1..][i]) == Some(y) {
        var i :| 0 <= i < |s[1..]| && f(s[1..][i]) == Some(y);
        assert s[i + 1] == s[1..][i];
      }
    }
  }

  /** `s.map(f).slice(0, n)`. */
  method MapTake<A, B>(s: seq<A>, f: A -> B, n: nat) returns (r: seq<B>)
    ensures |r| == if n < |s| then n else |s|
    ensures forall i :: 0 <= i < |r| ==> r[i] == f(s[i])
  {
    r := [];
    var i := 0;
    while i < |s| && i < n
      invariant 0 <= i <= |s| && i <= n
      invariant |r| == i
      invariant forall j :: 0 <= j < i ==> r[j] == f(s[j])
    {
      r := r + [f(s[i])];
      i := i + 1;
    }
  }

  predicate IsPrefix<T(==)>(a: seq<T>, b: seq<T>) {
    |a| <= |b| && a == b[..|a|]
  }

  /** `s.slice(0, n)` for a non-negative `n`. */
  function Take<T>(s: seq<T>, n: nat): (r: seq<T>)
    ensures |r| == if n < |s| then n else |s|
    ensures IsPrefix(r, s)
  {
    if n < |s| then s[..n] else s
  }
}

=== FILE: stable_sort.dfy ===
/** A stable sort of provider views by a rank computed from their keys:
    the algorithm behind `sortProviders`, independent of the catalog. */
module StableSort {
  import opened Seqs
  import opened Types

  /** `s` is non-decreasing by the rank of its keys. */
  predicate SortedBy(s: seq<ProviderView>, rank: string -> int) {
    forall i, j :: 0 <= i < j < |s| ==> rank(s[i].key) <= rank(s[j].key)
  }

  /** The views of `s` whose key has rank `k`, in order. */
  function WithRank(s: seq<ProviderView>, rank: string -> int, k: int): seq<ProviderView> {
    Filter(s, (v: ProviderView) => rank(v.key) == k)
  }

  /** Place `x` in the sorted `s` before the first view of rank at least
      its own. */
  function Insert(x: ProviderView, s: seq<ProviderView>, rank: string -> int): (r: seq<ProviderView>)
    requires SortedBy(s, rank)
    ensures |r| == |s| + 1 && multiset(r) == multiset([x] + s)
    ensures SortedBy(r, rank)
    ensures KeySet(r) == {x.key} + KeySet(s)
    ensures DistinctKeys(s) && x.key !in KeySet(s) ==> DistinctKeys(r)
    ensures forall k :: WithRank(r, rank, k) == WithRank([x] + s, rank, k)
  {
    KeySetCons(x, s);
    DistinctKeysCons(x, s);
    if s == [] then
      assert [x] + s == [x];
      [x]
    else if rank(x.key) <= rank(s[0].key) then [x] + s
    else
      var t := Insert(x, s[1..], rank);
      InsertStepSorted(x, s, t, rank);
      InsertStepKeys(x, s, t);
      InsertStepStable(x, s, t, rank);
      [s[0]] + t
  }

  /** Recursive case of `Insert`, order: `s[0]` ranks strictly below `x`
      and no higher than anything in `s`. */
  lemma InsertStepSorted(x: ProviderView, s: seq<ProviderView>, t: seq<ProviderView>, rank: string -> int)
    requires s != [] && SortedBy(s, rank) && rank(s[0].key) < rank(x.key)
    requires multiset(t) == multiset([x] + s[1..]) && SortedBy(t, rank)
    ensures SortedBy([s[0]] + t, rank)
  {
    forall i | 0 <= i < |t| ensures rank(s[0].key) <= rank(t[i].key) {
      assert t[i] in multiset([x] + s[1..]);
      if t[i] != x {
        assert t[i] in s[1..];
      }
    }
  }

  /** Recursive case of `Insert`, contents and keys. */
  lemma InsertStepKeys(x: ProviderView, s: seq<ProviderView>, t: seq<ProviderView>)
    requires s != []
    requires multiset(t) == multiset([x] + s[1..])
    requires KeySet(t) == {x.key} + KeySet(s[1..])
    requires DistinctKeys(s[1..]) && x.key !in KeySet(s[1..]) ==> DistinctKeys(t)
    ensures multiset([s[0]] + t) == multiset([x] + s)
    ensures KeySet([s[0]] + t) == {x.key} + KeySet(s)
    ensures DistinctKeys(s) && x.key !in KeySet(s) ==> DistinctKeys([s[0]] + t)
  {
    assert s == [s[0]] + s[1..];
    KeySetCons(s[0], t);
    KeySetCons(s[0], s[1..]);
    DistinctKeysCons(s[0], t);
    DistinctKeysCons(s[0], s[1..]);
  }

  /** Recursive case of `Insert`, stability: `s[0]` and `x` have different
      ranks, so swapping them changes no rank's subsequence. */
  lemma InsertStepStable(x: ProviderView, s: seq<ProviderView>, t: seq<ProviderView>, rank: string -> int)
    requires s != [] && rank(s[0].key) < rank(x.key)
    requires forall k :: WithRank(t, rank, k) == WithRank([x] + s[1..], rank, k)
    ensures forall k :: WithRank([s[0]] + t, rank, k) == WithRank([x] + s, rank, k)
  {
    assert s == [s[0]] + s[1..];
    forall k ensures WithRank([s[0]] + t, rank, k) == WithRank([x] + s, rank, k) {
      var p := (v: ProviderView) => rank(v.key) == k;
      assert WithRank(t, rank, k) == WithRank([x] + s[1..], rank, k);
      FilterCons(s[0], t, p);
      FilterCons(x, s[1..], p);
      FilterCons(x, s, p);
      FilterCons(s[0], s[1..], p);
    }
  }

  /** A stable sort by rank: a permutation, non-decreasing, and for every
      rank the views of that rank keep their relative order. */
  function SortBy(s: seq<ProviderView>, rank: string -> int): (r: seq<ProviderView>)
    ensures multiset(r) == multiset(s)
    ensures |r| == |s| && KeySet(r) == KeySet(s)
    ensures SortedBy(r, rank)
    ensures DistinctKeys(s) ==> DistinctKeys(r)
    ensures forall k :: WithRank(r, rank, k) == WithRank(s, rank, k)
  {
    if s == [] then []
    else
      var t := SortBy(s[1..], rank);
      var r := Insert(s[0], t, rank);
      SortStep(s, t, r, rank);
      r
  }

  /** Recursive case of `SortBy`: `r` inserts `s[0]` into `t`, the sorted
      rest of `s`. */
  lemma SortStep(s: seq<ProviderView>, t: seq<ProviderView>, r: seq<ProviderView>, rank: string -> int)
    requires s != [] && |t| == |s| - 1
    requires multiset(t) == multiset(s[1..]) && KeySet(t) == KeySet(s[1..])
    requires DistinctKeys(s[1..]) ==> DistinctKeys(t)
    requires forall k :: WithRank(t, rank, k) == WithRank(s[1..], rank, k)
    requires |r| == |t| + 1 && multiset(r) == multiset([s[0]] + t)
    requires SortedBy(r, rank) && KeySet(r) == {s[0].key} + KeySet(t)
    requires DistinctKeys(t) && s[0].key !in KeySet(t) ==> DistinctKeys(r)
    requires forall k :: WithRank(r, rank, k) == WithRank([s[0]] + t, rank, k)
    ensures multiset(r) == multiset(s)
    ensures |r| == |s| && KeySet(r) == KeySet(s)
    ensures SortedBy(r, rank)
    ensures DistinctKeys(s) ==> DistinctKeys(r)
    ensures forall k :: WithRank(r, rank, k) == WithRank(s, rank, k)
  {
    SortStepKeys(s, t);
    SortStepStable(s, t, r, rank);
  }

  lemma SortStepKeys(s: seq<ProviderView>, t: seq<ProviderView>)
    requires s != []
    requires multiset(t) == multiset(s[1..]) && KeySet(t) == KeySet(s[1..])
    requires DistinctKeys(s[1..]) ==> DistinctKeys(t)
    ensures multiset([s[0]] + t) == multiset(s) && KeySet([s[0]] + t) == KeySet(s)
    ensures DistinctKeys(s) ==> DistinctKeys(t) && s[0].key !in KeySet(t)
  {
    assert s == [s[0]] + s[1..];
    KeySetCons(s[0], t);
    KeySetCons(s[0], s[1..]);
    DistinctKeysCons(s[0], s[1..]);
  }

  /** Recursive case of `SortBy`, stability: `r` inserts `s[0]` into the
      sorted rest `t`. */
  lemma SortStepStable(s: seq<ProviderView>, t: seq<ProviderView>, r: seq<ProviderView>, rank: string -> int)
    requires s != []
    requires forall k :: WithRank(t, rank, k) == WithRank(s[1..], rank, k)
    requires forall k :: WithRank(r, rank, k) == WithRank([s[0]] + t, rank, k)
    ensures forall k :: WithRank(r, rank, k) == WithRank(s, rank, k)
  {
    assert s == [s[0]] + s[1..];
    forall k ensures WithRank(r, rank, k) == WithRank(s, rank, k) {
      var p := (v: ProviderView) => rank(v.key) == k;
      assert WithRank(t, rank, k) == WithRank(s[1..], rank, k);
      assert WithRank(r, rank, k) == WithRank([s[0]] + t, rank, k);
      FilterCons(s[0], t, p);
      FilterCons(s[0], s[1..], p);
    }
  }

  /** Sorting a list that is already in order changes nothing. */
  lemma {:induction false} SortBySorted(s: seq<ProviderView>, rank: string -> int)
    requires SortedBy(s, rank)
    ensures SortBy(s, rank) == s
  {
    if s != [] {
      var t := s[1..];
      assert SortedBy(t, rank);
      SortBySorted(t, rank);
      InsertHead(s[0], t, rank);
      assert s == [s[0]] + t;
    }
  }

  /** Inserting a view that ranks no higher than the head of `s` puts it
      in front. */
  lemma InsertHead(x: ProviderView, s: seq<ProviderView>, rank: string -> int)
    requires SortedBy(s, rank) && (s == [] || rank(x.key) <= rank(s[0].key))
    ensures Insert(x, s, rank) == [x] + s
  {
  }
}

=== FILE: text.dfy ===
/** Character-level string helpers with the semantics of the ECMAScript
    built-ins the program calls (`trim`, `toLowerCase`, `startsWith`,
    `split(',')[0]`), restricted where noted. */
module Text {

  /** ECMAScript WhiteSpace and LineTerminator code points: exactly what
      `String.prototype.trim` removes. */
  predicate IsSpace(c: char) {
    || c == '\t' || c == '\n' || c == '\U{000B}' || c == '\U{000C}' || c == '\r'
    || c == ' ' || c == '\U{00A0}' || c == '\U{1680}'
    || ('\U{2000}' <= c <= '\U{200A}')
    || c == '\U{2028}' || c == '\U{2029}' || c == '\U{202F}' || c == '\U{205F}'
    || c == '\U{3000}' || c == '\U{FEFF}'
  }

  predicate IsDigit(c: char) {
    '0' <= c <= '9'
  }

  predicate IsLowerAlnum(c: char) {
    ('a' <= c <= 'z') || IsDigit(c)
  }

  predicate AllLowerAlnum(s: string) {
    forall i :: 0 <= i < |s| ==> IsLowerAlnum(s[i])
  }

  predicate AllSpace(s: string) {
    forall i :: 0 <= i < |s| ==> IsSpace(s[i])
  }

  predicate AllDigits(s: string) {
    forall i :: 0 <= i < |s| ==> IsDigit(s[i])
  }

  /** ASCII part of `toLowerCase`: 'A'..'Z' become 'a'..'z', every other
      character is kept. */
  function LowerChar(c: char): (d: char)
    ensures IsLowerAlnum(c) ==> d == c
    ensures IsLowerAlnum(d) ==> IsLowerAlnum(c) || ('A' <= c <= 'Z')
  {
    if 'A' <= c <= 'Z' then (c as int - 'A' as int + 'a' as int) as char else c
  }

  function Lower(s: string): (r: string)
    ensures |r| == |s|
    ensures forall i :: 0 <= i < |s| ==> r[i] == LowerChar(s[i])
  {
    seq(|s|, i requires 0 <= i < |s| => LowerChar(s[i]))
  }

  /** `trimStart`: the longest suffix of `s` that does not begin with a space. */
  function TrimStart(s: string): (r: string)
    ensures |r| <= |s| && r == s[|s| - |r|..]
    ensures AllSpace(s[..|s| - |r|])
    ensures r == [] || !IsSpace(r[0])
  {
    if s != [] && IsSpace(s[0]) then TrimStart(s[1..]) else s
  }

  /** `trimEnd`: the longest prefix of `s` that does not end with a space. */
  function TrimEnd(s: string): (r: string)
    ensures |r| <= |s| && r == s[..|r|]
    ensures AllSpace(s[|r|..])
    ensures r == [] || !IsSpace(r[|r| - 1])
  {
    if s != [] && IsSpace(s[|s| - 1]) then TrimEnd(s[..|s| - 1]) else s
  }

  /** `String.prototype.trim`. */
  function Trim(s: string): (r: string)
    ensures r == [] || (!IsSpace(r[0]) && !IsSpace(r[|r| - 1]))
    ensures r == [] <==> AllSpace(s)
    ensures exists i, j :: 0 <= i <= j <= |s| && r == s[i..j] && AllSpace(s[..i]) && AllSpace(s[j..])
  {
    var t := TrimStart(s);
    var r := TrimEnd(t);
    TrimSlices(s, t, r);
    r
  }

  /** Trimming the start and then the end leaves the middle slice between
      the two trimmed runs of spaces. */
  lemma TrimSlices(s: string, t: string, r: string)
    requires |t| <= |s| && t == s[|s| - |t|..] && AllSpace(s[..|s| - |t|])
    requires |r| <= |t| && r == t[..|r|] && AllSpace(t[|r|..])
    ensures var i := |s| - |t|;
      r == s[i..i + |r|] && AllSpace(s[..i]) && AllSpace(s[i + |r|..])
  {
    var i := |s| - |t|;
    assert s[i..i + |r|] == t[..|r|];
    assert s[i + |r|..] == t[|r|..];
  }

  lemma LowerAppend(a: string, b: string)
    ensures Lower(a + b) == Lower(a) + Lower(b)
  {
  }

  /** A string without leading or trailing spaces is its own trim. */
  lemma TrimNoSpace(s: string)
    requires forall i :: 0 <= i < |s| ==> !IsSpace(s[i])
    ensures Trim(s) == s
  {
  }

  /** `s.startsWith(p)`. */
  predicate StartsWith(s: string, p: string) {
    |p| <= |s| && s[..|p|] == p
  }

  /** `s.split(c)[0]`: the text before the first occurrence of `c`, or all
      of `s` when `c` does not occur. */
  function BeforeFirst(s: string, c: char): (r: string)
    ensures |r| <= |s| && r == s[..|r|]
    ensures c !in r
    ensures |r| < |s| ==> s[|r|] == c
  {
    if s == [] || s[0] == c then [] else [s[0]] + BeforeFirst(s[1..], c)
  }

  /** Without the separator, `split(c)[0]` is the whole text. */
  lemma {:induction false} BeforeFirstAbsent(s: string, c: char)
    requires c !in s
    ensures BeforeFirst(s, c) == s
  {
    if s != [] {
      assert s == [s[0]] + s[1..];
      BeforeFirstAbsent(s[1..], c);
    }
  }

  function DigitValue(c: char): (d: nat)
    requires IsDigit(c)
    ensures d < 10
  {
    c as int - '0' as int
  }

  /** The value of a string of decimal digits, read most significant first
      (as `Number` reads it). */
  function DecimalValue(s: string): (n: nat)
    requires AllDigits(s)
  {
    if s == [] then 0 else 10 * DecimalValue(s[..|s| - 1]) + DigitValue(s[|s| - 1])
  }

  /** The decimal rendering of a natural number (`String(n)`), without
      leading zeros. */
  function DecimalString(n: nat): (s: string)
    ensures 1 <= |s| && AllDigits(s)
    ensures DecimalValue(s) == n
    ensures n >= 10 ==> |s| >= 2
    decreases n
  {
    var d := ['0' + (n % 10) as char];
    if n < 10 then d else DecimalString(n / 10) + d
  }

  /** Numbers below ten thousand render with as many digits as they have. */
  lemma {:induction false} DecimalStringLength(n: nat)
    ensures n < 10 ==> |DecimalString(n)| == 1
    ensures 10 <= n < 100 ==> |DecimalString(n)| == 2
    ensures 100 <= n < 1000 ==> |DecimalString(n)| == 3
    ensures 1000 <= n < 10000 ==> |DecimalString(n)| == 4
    decreases n
  {
    if n >= 10 {
      DecimalStringLength(n / 10);
    }
  }

  /** Different numbers render differently. */
  lemma DecimalStringInjective(a: nat, b: nat)
    requires DecimalString(a) == DecimalString(b)
    ensures a == b
  {
  }
}

=== FILE: tmdb.dfy ===
/** The TMDB image-URL builders and the release-year reader used by the
    provider transform and the API client (the client keeps identical
    copies of these three helpers; they are modelled once here). */
module Tmdb {
  import opened Options
  import opened Text

  const ImageBase: string := "https://image.tmdb.org/t/p"

  datatype PosterSize = W185 | W342
  datatype LogoSize = W45 | W92

  const DefaultPosterSize: PosterSize := W342
  const DefaultLogoSize: LogoSize := W45

  function PosterSizeName(s: PosterSize): string {
    match s
    case W185 => "w185"
    case W342 => "w342"
  }

  function LogoSizeName(s: LogoSize): string {
    match s
    case W45 => "w45"
    case W92 => "w92"
  }

  /** The prefix every image URL of the given size starts with. */
  function ImagePrefix(size: string): string {
    ImageBase + "/" + size
  }

  /** `${base}/${size}${path}` for a present path; `!path` rejects null,
      undefined and the empty string, nothing else (a blank path is kept). */
  function ImageUrl(size: string, path: Option<string>): (r: Option<string>)
    ensures r.None? <==> path.None? || path.value == ""
    ensures r.Some? ==> StartsWith(r.value, ImagePrefix(size))
    ensures r.Some? ==> r.value[|ImagePrefix(size)|..] == path.value
  {
    if path.None? || path.value == "" then None
    else
      var url := ImagePrefix(size) + path.value;
      assert url[..|ImagePrefix(size)|] == ImagePrefix(size);
      assert url[|ImagePrefix(size)|..] == path.value;
      Some(url)
  }

  /** The path is recoverable from the URL: equal URLs of one size come
      from equal paths. */
  lemma ImageUrlInjective(size: string, p: Option<string>, q: Option<string>)
    requires ImageUrl(size, p).Some? && ImageUrl(size, p) == ImageUrl(size, q)
    ensures p == q
  {
  }

  /** `tmdbPosterUrl(path, size)`. */
  function PosterUrl(path: Option<string>, size: PosterSize): (r: Option<string>)
    ensures r.None? <==> path.None? || path.value == ""
    ensures r.Some? ==> StartsWith(r.value, ImagePrefix(PosterSizeName(size)))
                        && r.value[|ImagePrefix(PosterSizeName(size))|..] == path.value
  {
    ImageUrl(PosterSizeName(size), path)
  }

  /** `tmdbLogoUrl(path, size)`. */
  function LogoUrl(path: Option<string>, size: LogoSize): (r: Option<string>)
    ensures r.None? <==> path.None? || path.value == ""
    ensures r.Some? ==> StartsWith(r.value, ImagePrefix(LogoSizeName(size)))
                        && r.value[|ImagePrefix(LogoSizeName(size))|..] == path.value
  {
    ImageUrl(LogoSizeName(size), path)
  }

  /** Unlike `posterUrlFromPath`, a whitespace-only path still yields a
      URL. */
  lemma BlankLogoPathKept(path: string)
    requires path != "" && AllSpace(path)
    ensures LogoUrl(Some(path), DefaultLogoSize) == Some(ImagePrefix("w45") + path)
  {
  }

  /** The first four characters (`slice(0, 4)`), or all of a shorter string. */
  function YearPrefix(date: string): (p: string)
    ensures |p| == if |date| < 4 then |date| else 4
    ensures p == date[..|p|]
  {
    if |date| < 4 then date else date[..4]
  }

  /** `Number(date.slice(0, 4))` for a present non-empty date, when the
      prefix is all decimal digits. Other prefixes give no year here. */
  function ReleaseYear(date: Option<string>): (r: Option<nat>)
    ensures date.None? || date.value == "" ==> r.None?
    ensures date.Some? && date.value != "" && AllDigits(YearPrefix(date.value)) ==>
              r == Some(DecimalValue(YearPrefix(date.value)))
    ensures r.Some? ==> date.Some? && date.value != "" && AllDigits(YearPrefix(date.value))
  {
    if date.None? || date.value == "" then None
    else if AllDigits(YearPrefix(date.value)) then Some(DecimalValue(YearPrefix(date.value)))
    else None
  }

  /** A `YYYY-MM-DD` date reads back as its year: rendering a four-digit
      year and appending any suffix, then reading, gives the year. */
  lemma ReleaseYearOfRendered(y: nat, rest: string)
    requires 1000 <= y < 10000
    ensures ReleaseYear(Some(DecimalString(y) + rest)) == Some(y)
  {
    DecimalStringLength(y);
    var d := DecimalString(y) + rest;
    assert YearPrefix(d) == DecimalString(y);
  }
}

=== FILE: ttl_cache.dfy ===
/** `TtlCache`: a key-value store whose entries expire a fixed time after
    they were written. Expired entries are removed lazily, by the read that
    finds them. The clock is an explicit parameter `now` (milliseconds). */
module TtlCache {
  import opened Options

  datatype Entry<T> = Entry(value: T, expiresAtMs: int)

  /** A cache: its time-to-live and its store. */
  datatype Cache<T> = Cache(ttlMs: int, store: map<string, Entry<T>>)

  /** A read answers a value or nothing, and may change the store. */
  datatype Read<T> = Read(cache: Cache<T>, value: Option<T>)

  /** `get(key)` at time `now`: a hit while `now` has not passed the entry's
      expiry; a read past the expiry removes that entry alone. */
  function Get<T>(c: Cache<T>, key: string, now: int): (r: Read<T>)
    ensures r.cache.ttlMs == c.ttlMs
    ensures r.value.Some? <==> key in c.store && now <= c.store[key].expiresAtMs
    ensures r.value.Some? ==> r.value.value == c.store[key].value && r.cache == c
    ensures key !in c.store ==> r.cache == c
    ensures key in c.store && now > c.store[key].expiresAtMs ==>
              key !in r.cache.store
              && forall k :: k != key ==> (k in r.cache.store <==> k in c.store)
                                          && (k in c.store ==> r.cache.store[k] == c.store[k])
  {
    if key !in c.store then Read(c, None)
    else if now > c.store[key].expiresAtMs then Read(Cache(c.ttlMs, c.store - {key}), None)
    else Read(c, Some(c.store[key].value))
  }

  /** `set(key, value)` at time `now`: overwrite unconditionally, expiring
      `ttlMs` after `now`; other keys are untouched. */
  function Set<T>(c: Cache<T>, key: string, value: T, now: int): (r: Cache<T>)
    ensures r.ttlMs == c.ttlMs
    ensures key in r.store && r.store[key].value == value && r.store[key].expiresAtMs == now + c.ttlMs
    ensures forall k :: k != key ==> (k in r.store <==> k in c.store)
                                     && (k in c.store ==> r.store[k] == c.store[k])
  {
    Cache(c.ttlMs, c.store[key := Entry(value, now + c.ttlMs)])
  }

  /** A value written at `t` is read back at any time up to and including
      `t + ttlMs`: expiry is strict. */
  lemma SetThenGetHit<T>(c: Cache<T>, key: string, value: T, t: int, now: int)
    requires now <= t + c.ttlMs
    ensures Get(Set(c, key, value, t), key, now).value == Some(value)
  {
  }

  /** After `t + ttlMs` the value is gone, and the read removes it. */
  lemma SetThenGetExpired<T>(c: Cache<T>, key: string, value: T, t: int, now: int)
    requires now > t + c.ttlMs
    ensures Get(Set(c, key, value, t), key, now).value.None?
    ensures key !in Get(Set(c, key, value, t), key, now).cache.store
  {
  }

  /** Writing one key does not change what another key reads. */
  lemma SetOtherKey<T>(c: Cache<T>, key: string, other: string, value: T, t: int, now: int)
    requires other != key
    ensures Get(Set(c, key, value, t), other, now).value == Get(c, other, now).value
  {
  }

  // ---------------------------------------------------------------------
  // Histories of calls

  /** One call on the cache, with the time it was made. */
  datatype Call<T> = SetCall(key: string, value: T, at: int) | GetCall(key: string, at: int)

  /** The cache after one call. */
  function Apply<T>(c: Cache<T>, call: Call<T>): Cache<T> {
    match call
    case SetCall(k, v, t) => Set(c, k, v, t)
    case GetCall(k, t) => Get(c, k, t).cache
  }

  /** The cache after a history of calls, oldest first. */
  function Replay<T>(c: Cache<T>, calls: seq<Call<T>>): Cache<T>
    decreases |calls|
  {
    if calls == [] then c else Apply(Replay(c, calls[..|calls| - 1]), calls[|calls| - 1])
  }

  /** The clock never runs backwards within a history. */
  predicate Chronological<T>(calls: seq<Call<T>>) {
    forall i, j :: 0 <= i < j < |calls| ==> calls[i].at <= calls[j].at
  }

  /** The most recent write of `key` in a history. */
  function LastSet<T>(calls: seq<Call<T>>, key: string): (r: Option<Call<T>>)
    ensures r.Some? ==> r.value.SetCall? && r.value.key == key && r.value in calls
    decreases |calls|
  {
    if calls == [] then None
    else if calls[|calls| - 1].SetCall? && calls[|calls| - 1].key == key then Some(calls[|calls| - 1])
    else LastSet(calls[..|calls| - 1], key)
  }

  /** What a read of `key` at `now` should answer after a history: the
      last value written, unless its lifetime has passed. */
  function Expected<T>(ttlMs: int, calls: seq<Call<T>>, key: string, now: int): Option<T> {
    match LastSet(calls, key)
    case None => None
    case Some(w) => if now <= w.at + ttlMs then Some(w.value) else None
  }

  /** The store agrees with the history: a key is stored only with its last
      written value, and a written key is missing only if it expired before
      the latest call. */
  ghost predicate Agrees<T>(c: Cache<T>, calls: seq<Call<T>>) {
    forall k ::
      && (LastSet(calls, k).None? ==> k !in c.store)
      && (LastSet(calls, k).Some? && k in c.store ==>
            c.store[k] == Entry(LastSet(calls, k).value.value, LastSet(calls, k).value.at + c.ttlMs))
      && (LastSet(calls, k).Some? && k !in c.store ==>
            calls != [] && LastSet(calls, k).value.at + c.ttlMs < calls[|calls| - 1].at)
  }

  /** Replaying a chronological history into an empty cache keeps the store
      in agreement with the history. */
  lemma {:induction false} ReplayAgrees<T>(ttlMs: int, calls: seq<Call<T>>)
    requires Chronological(calls)
    ensures Replay(Cache(ttlMs, map[]), calls).ttlMs == ttlMs
    ensures Agrees(Replay(Cache(ttlMs, map[]), calls), calls)
    decreases |calls|
  {
    if calls != [] {
      var pre := calls[..|calls| - 1];
      var call := calls[|calls| - 1];
      assert Chronological(pre);
      ReplayAgrees(ttlMs, pre);
      var c := Replay(Cache(ttlMs, map[]), pre);
      if pre != [] {
        assert pre[|pre| - 1] == calls[|calls| - 2];
      }
      forall k ensures LastSet(pre, k).Some? && k !in c.store ==> LastSet(pre, k).value.at + ttlMs < call.at {
      }
      match call
      case SetCall(key, v, t) =>
        SetStep(c, pre, call);
      case GetCall(key, t) =>
        GetStep(c, pre, call);
    }
  }

  lemma SetStep<T>(c: Cache<T>, pre: seq<Call<T>>, call: Call<T>)
    requires call.SetCall? && Agrees(c, pre)
    requires forall k :: LastSet(pre, k).Some? && k !in c.store ==> LastSet(pre, k).value.at + c.ttlMs < call.at
    ensures Agrees(Apply(c, call), pre + [call])
  {
    var calls := pre + [call];
    assert calls[..|calls| - 1] == pre;
  }

  lemma GetStep<T>(c: Cache<T>, pre: seq<Call<T>>, call: Call<T>)
    requires call.GetCall? && Agrees(c, pre)
    requires forall k :: LastSet(pre, k).Some? && k !in c.store ==> LastSet(pre, k).value.at + c.ttlMs < call.at
    ensures Agrees(Apply(c, call), pre + [call])
  {
    var calls := pre + [call];
    assert calls[..|calls| - 1] == pre;
  }

  /** A read at or after the latest call of a chronological history
      answers the last value written to its key while that value's lifetime
      lasts, and nothing otherwise. */
  lemma ReadAfterHistory<T>(ttlMs: int, calls: seq<Call<T>>, key: string, now: int)
    requires Chronological(calls)
    requires calls != [] ==> calls[|calls| - 1].at <= now
    ensures Get(Replay(Cache(ttlMs, map[]), calls), key, now).value == Expected(ttlMs, calls, key, now)
  {
    ReplayAgrees(ttlMs, calls);
  }
}

=== FILE: types.dfy ===
/** The records the core exchanges: the upstream TMDB watch-provider shapes
    (after schema validation) and the normalised views handed to callers. */
module Types {
  import opened Options

  /** One upstream provider record of one distribution method in one region.
      The schema's `display_priority` is never read and is not modelled. */
  datatype TmdbProvider = TmdbProvider(providerId: int, providerName: string, logoPath: Option<string>)

  /** The upstream record of one region; every list may be missing. */
  datatype CountryProviders = CountryProviders(
    link: Option<string>,
    flatrate: Option<seq<TmdbProvider>>,
    free: Option<seq<TmdbProvider>>,
    rent: Option<seq<TmdbProvider>>,
    buy: Option<seq<TmdbProvider>>)

  /** A missing list reads as the empty list (`list ?? []`). */
  function Items(l: Option<seq<TmdbProvider>>): seq<TmdbProvider> {
    l.GetOr([])
  }

  /** The normalised, deduplicated-by-key provider unit. */
  datatype ProviderView = ProviderView(key: string, name: string, logoUrl: Option<string>, link: Option<string>)

  datatype PaidProviders = PaidProviders(rent: seq<ProviderView>, buy: seq<ProviderView>)

  /** `found` is the program's `exists` field: the region had an upstream record. */
  datatype RegionProviders = RegionProviders(
    country: string,
    found: bool,
    message: Option<string>,
    primaryProviders: seq<ProviderView>,
    paidProviders: PaidProviders,
    showPaid: bool)

  datatype MediaType = Movie | Tv

  /** A search or trending result as shown to the user. */
  datatype Content = Content(
    id: int,
    title: string,
    mediaType: MediaType,
    posterPath: string,
    overview: string,
    releaseDate: Option<string>,
    firstAirDate: Option<string>,
    originCountry: Option<seq<string>>,
    originalLanguage: Option<string>)

  function KeySet(s: seq<ProviderView>): set<string> {
    set i | 0 <= i < |s| :: s[i].key
  }

  /** At most one view per canonical key. */
  predicate DistinctKeys(s: seq<ProviderView>) {
    forall i, j :: 0 <= i < j < |s| ==> s[i].key != s[j].key
  }

  lemma KeySetCons(x: ProviderView, s: seq<ProviderView>)
    ensures KeySet([x] + s) == {x.key} + KeySet(s)
  {
    assert forall i :: 0 <= i < |s| ==> ([x] + s)[i + 1] == s[i];
    assert ([x] + s)[0] == x;
  }

  lemma DistinctKeysCons(x: ProviderView, s: seq<ProviderView>)
    ensures DistinctKeys([x] + s) <==> x.key !in KeySet(s) && DistinctKeys(s)
  {
    var xs := [x] + s;
    assert forall i :: 0 <= i < |s| ==> xs[i + 1] == s[i];
    if DistinctKeys(xs) {
      forall i, j | 0 <= i < j < |s| ensures s[i].key != s[j].key {
        assert xs[i + 1].key != xs[j + 1].key;
      }
      forall i | 0 <= i < |s| ensures s[i].key != x.key {
        assert xs[0].key != xs[i + 1].key;
      }
    }
    if x.key !in KeySet(s) && DistinctKeys(s) {
      forall i, j | 0 <= i < j < |xs| ensures xs[i].key != xs[j].key {
        if i == 0 {
          assert xs[j].key == s[j - 1].key && s[j - 1].key in KeySet(s);
        } else {
          assert xs[i].key == s[i - 1].key && xs[j].key == s[j - 1].key;
        }
      }
    }
  }
}
